=== FILE: README.md ===
# TMCP transports in Dafny

A model of the transport layer of MCP over TSP (the Trust Spanning
Protocol). Every JSON-RPC message a Model Context Protocol client and
server exchange is sealed into a TSP message addressed from one DID to
another. The message is carried over Server-Sent Events plus HTTP POST,
or over WebSocket text frames, and opened at the other end. The model
covers these parts of that layer:

- **Request validation** (`TransportSecurity`): DNS-rebinding protection
  and the Content-Type check that guard the HTTP endpoints.
- **Identity** (`Tmcp`): setting up the local identity, either reusing a
  stored one or creating, publishing and storing a new one. It also covers
  adding query parameters to a URL and resolving a server DID to the URL
  that carries the client's DID.
- **SSE server** (`SseServer`): the GET handshake that registers a peer
  and announces its callback path, and the sealed outbound event stream.
  It also covers the session registry over a whole history of connects
  and disconnects, and the decision table of the POST handler.
- **SSE client** (`SseClient`): the transport check and scheme rewrite of
  the resolved URL, and the reader that learns the endpoint and forwards
  messages. It also covers the writer that POSTs sealed messages, and
  `remove_request_params`.
- **WebSocket transports** (`WsServer`, `WsClient`): the subprotocol, and
  the readers and writers on both ends, including the receiver check that
  only the server does. Round trips are proved from client to server and
  from server to client.
- **Pass-through transport hook** (`TransportHook`).

Supporting modules model the library behaviour the transports rely on:

- `Query`: Python dict ordering and `dict.update`.
- `UrlLib`: `urlsplit`/`urlunsplit`, `urljoin` and `quote`, after
  CPython's `urllib.parse`.
- `Base64Url`: the URL-safe base64 of section 5 of RFC 4648, with its
  round trip. The decoder is the strict one; Python's is more lenient
  (see "Left out").
- `Text`: string helpers such as `str.replace`, `str.rstrip` and slicing.

Foreign collaborators become function-valued fields of datatypes:

- the TSP wallet (`SecureStore`, `Channel`);
- the DID directory and its publishing endpoints (`Directory`);
- pydantic validation and JSON dumping (`JsonRpcCodec`);
- the JSON event codec (`EventCodec`);
- `parse_qsl`/`urlencode` (`QueryCodec`).

The laws these collaborators are expected to obey are ghost predicates
used as preconditions (`SealOpens`, `ChannelRoundTrip`, `EventRoundTrip`,
`DumpValidates`, `QueryRoundTrip`). Every property proved about a
collaborator's use holds for any collaborator that obeys these laws, so
the laws are the whole of what is assumed about the real libraries.
`QueryRoundTrip` follows `parse_qsl` as the source calls it, with
`keep_blank_values=False`. Parsing what `urlencode` wrote gives back the
dict's items minus those whose value is empty. Nothing parsed has an empty
value, and the encoded text holds no raw `#`.
`TransportHook.HookChannelRoundTrip` shows that the channel law can be
met. An exception becomes an `Err`/`Crash`/`Stop` value carrying its
message. Anything put on a read stream is an `Inbound` value: a received
message, or a raised validation or fatal error.

## Model

| member | source | states |
|---|---|---|
| TransportSecurity.EffectiveSettings | src/mcp/server/transport_security.py:40-43 | A middleware built without settings has DNS-rebinding protection off and empty allow-lists; given settings are used as they are |
| TransportSecurity.WildcardMatch | src/mcp/server/transport_security.py:55-63 | The allow-list loop succeeds exactly when some entry is a `B:*` pattern whose `B:` prefix starts the value |
| TransportSecurity.ValidateHost | src/mcp/server/transport_security.py:45-65 | A Host passes iff it is present, non-empty and permitted by the allow-list (listed exactly or admitted by a port wildcard) |
| TransportSecurity.ValidateOrigin | src/mcp/server/transport_security.py:67-87 | An Origin passes iff it is absent, empty, or permitted by the allow-list |
| TransportSecurity.ValidateContentType | src/mcp/server/transport_security.py:89-102 | A Content-Type passes iff it is present and begins, ignoring the case of ASCII letters, with `application/tsp` or `application/json`; whatever follows is not read |
| TransportSecurity.ContentTypeParametersAccepted | src/mcp/server/transport_security.py:96-98 | Only the start of the lower-cased header is examined: `application/json; charset=utf-8` and `Application/TSP+x` pass, `text/application/json` does not |
| TransportSecurity.ValidateRequest | src/mcp/server/transport_security.py:104-129 | A request proceeds iff a POST has an acceptable Content-Type and, with protection on, Host and Origin pass. A bad Content-Type is answered 400 first. 421 means exactly that the earlier checks passed and the Host failed. No other responses exist |
| TransportSecurity.DefaultAdmitsEveryGet | src/mcp/server/transport_security.py:40-43 | Without settings, every GET passes whatever its headers |
| TransportSecurity.MissingHostRejected | src/mcp/server/transport_security.py:47-49 | A missing or empty Host never passes, whatever the allow-list |
| TransportSecurity.WildcardIgnoresPortText | src/mcp/server/transport_security.py:57-62 | `localhost:*` admits `localhost:` and `localhost:abc` but not `localhost`: the port text is never examined |
| TransportSecurity.ContentTypeIgnoresCase | src/mcp/server/transport_security.py:96-98 | The Content-Type verdict does not change when the header is lower-cased |
| TransportSecurity.ClientContentTypeAccepted | src/mcp/client/sse.py:148 | The content type the SSE client posts with passes the server's check |
| TransportSecurity.PostContentTypeCheckedWhenDisabled | src/mcp/server/transport_security.py:109-117 | A POST with a bad Content-Type is refused with 400 even when protection is off |
| Tmcp.FreshName | src/mcp/shared/tmcp.py:42 | The fresh name is `f"{alias}-{uuid}"[:63]`: the whole text when it fits in 63 characters, otherwise its first 63 characters |
| Tmcp.CreateIdentity | src/mcp/shared/tmcp.py:41-65 | The identity is the one `new_did_webvh` makes for the templated fresh name. The document POST comes first and carries its document. The history POST, carrying the history, is made only after the first succeeds. The identity is stored under the alias, next to every identity already held, iff both succeed. A failure leaves the wallet unchanged |
| Tmcp.InitIdentity | src/mcp/shared/tmcp.py:20-65 | A stored DID that still verifies is returned with no POSTs. A verification error other than not-found is raised with no change. A missing alias, or a stored DID reported as not found, leads to a fresh identity being created and published. The wallet changes only on a successful creation |
| Tmcp.NotFoundRecreates | src/mcp/shared/tmcp.py:29-33 | A stored DID the directory reports as not found is replaced by a freshly published identity, which the alias then names |
| Tmcp.Status404IsNotFound | src/mcp/shared/tmcp.py:32 | Any message containing `kind: Status(404)` counts as not found |
| Tmcp.AddRequestParams | src/mcp/shared/tmcp.py:68-73 | Whatever the query codec does, a URL with a host keeps its scheme and host |
| Tmcp.AddRequestParamsMerges | src/mcp/shared/tmcp.py:68-73 | Each given parameter reads back with its value, or as absent when that value is empty (`parse_qsl` drops blank values). Each other key keeps the last value the old query gave it, and no key repeats. Scheme, host, path and fragment are kept |
| Tmcp.AddRequestParamsIdempotent | src/mcp/shared/tmcp.py:68-73 | Adding the same parameters a second time keeps scheme, host, path and fragment, and every key reads the same value as after the first time |
| Tmcp.AddRequestParamsIdempotentUrl | src/mcp/shared/tmcp.py:68-73 | When no parameter value is empty, adding the same parameters twice yields the very same URL as adding them once |
| Tmcp.AddRequestParamsSets | src/mcp/shared/tmcp.py:70-72 | A key among the added parameters reads back with its given value, or as absent when that value is empty |
| Tmcp.DidParamSet | src/mcp/shared/tmcp.py:79 | After adding `{"did": d}`, the URL's query reads back `did` as `d`; an empty `d` reads back as no `did` at all |
| Tmcp.ResolveServer | src/mcp/shared/tmcp.py:76-80 | A verification error is raised as it is. Without a local DID the verified URL is returned unchanged |
| Tmcp.ResolveServerRoutesDid | src/mcp/shared/tmcp.py:76-80 | With a local DID, resolution succeeds to a URL of the same origin whose `did` query parameter is that DID (absent when the DID is empty) |
| TransportHook.Hook.GetEndpoint | src/mcp/shared/transport_hook.py:18-19 | A hook reports the endpoint it was built with |
| TransportHook.Hook.SealMessage | src/mcp/shared/transport_hook.py:24-25 | Sealing keeps every character in place |
| TransportHook.Hook.OpenMessage | src/mcp/shared/transport_hook.py:21-22 | Opening keeps every character in place |
| TransportHook.ClientHook | src/mcp/shared/transport_hook.py:5-6 | A client hook's endpoint is the URL or id it was asked for |
| TransportHook.ServerHook | src/mcp/shared/transport_hook.py:8-9 | A server hook's endpoint is `client://` |
| TransportHook.OpenSealed | src/mcp/shared/transport_hook.py:21-25 | Opening what a hook sealed gives back the original |
| TransportHook.HookChannelRoundTrip | src/mcp/shared/transport_hook.py:12-25 | The pass-through hook satisfies the channel round-trip law the transports rely on |
| TransportHook.ServerHookIgnoresRequest | src/mcp/shared/transport_hook.py:8-9 | Server hooks do not depend on the request |
| SseServer.CallbackPath | src/mcp/server/sse.py:139-145 | The path ends with the endpoint. What precedes it is the mount path with its trailing run of `/` removed and no `/` at its end |
| SseServer.CallbackPathExamples | src/mcp/server/sse.py:141-145 | `/api/` with `/messages/` gives `/api/messages/`, an empty mount path gives `/messages/`, and `/api//` loses both slashes |
| SseServer.ConnectSse | src/mcp/server/sse.py:103-148 | The handshake has four possible refusals, and none of them touches the registry: a non-HTTP scope (no response), a failed validation (its response), a missing `did`, a peer with no connection. Otherwise the peer is the last `did` value, its writer is registered, other peers are untouched, and the endpoint event carries the quoted callback path |
| SseServer.MessageEvents | src/mcp/server/sse.py:160-170 | One wire event per outgoing message, in order, each carrying that message sealed inside a `message` event |
| SseServer.OutboundStream | src/mcp/server/sse.py:152-170 | The stream has one more event than there are messages, and every wire event has kind `message` |
| SseServer.OutboundStreamOpens | src/mcp/server/sse.py:152-170 | Opened with the peer's channel, the stream yields the endpoint event first, then each outgoing message in order, validating to itself |
| SseServer.CloseAsWritten | src/mcp/server/sse.py:180-185 | A disconnect closes the writer and leaves every registry lookup unchanged |
| SseServer.Open | src/mcp/server/sse.py:133 | Registering a writer for a DID makes lookups of that DID find it, while other DIDs and the closed set are untouched |
| SseServer.Close | src/mcp/server/sse.py:180-185 | Corrected disconnect: the peer's entry goes only while it still names this connection's writer. A newer connection's entry and other peers are untouched |
| SseServer.ReplayTracksLatest | src/mcp/server/sse.py:133 | Over any orderly history, a lookup finds the writer of the peer's most recent connection while it is open, and nothing once it has closed |
| SseServer.ClosedSessionForgotten | src/mcp/server/sse.py:180-185 | After the latest connection of a peer disconnects, the peer has no session |
| SseServer.StaleEntryAsWritten | src/mcp/server/sse.py:133 | As written, a connect then disconnect of `P` leaves `P` routed to its closed writer |
| SseServer.HandlePost | src/mcp/server/sse.py:193-234 | A failed validation is answered with its response and nothing sent. A POST to another receiver gets 400. A well-addressed POST that opens, from a sender with no session, gets 404 with nothing sent, whatever its payload; 404 only ever means the sender has no session. A delivery goes only to the sender's registered writer after every check. With a session, such a POST is answered 202 with the validated message sent to that writer, or 400 "Could not parse message" with the validation error sent to it |
| SseServer.PostRoutesToSender | src/mcp/server/sse.py:203-234 | A well-addressed POST whose payload opens to any text that validates is answered 202 and that message is handed to the sender's writer, or answered 404 with no session |
| SseServer.PostForwardsParseError | src/mcp/server/sse.py:218-225 | A well-addressed POST whose payload opens but fails validation is answered 400 and its validation error still goes to the sender's writer, or is answered 404 with no session |
| SseServer.PostAfterDisconnect | src/mcp/server/sse.py:133-234 | As written, a POST after the peer's disconnect is answered 202 and handed to the closed writer. With cleanup it gets 404 |
| SseClient.RemoveRequestParams | src/mcp/client/sse.py:21-22 | Corrected: the result has the same scheme, host and path and no query or fragment |
| SseClient.RemoveRequestParamsAsWritten | src/mcp/client/sse.py:21-22 | As written, a URL with an empty path comes back unchanged, query and all |
| SseClient.RemoveRequestParamsIdempotent | src/mcp/client/sse.py:21-22 | Removing the parameters twice is removing them once |
| SseClient.RemoveRequestParamsAsWrittenAgrees | src/mcp/client/sse.py:21-22 | On HTTP(S) URLs with a host and a plain absolute path, the code as written equals the corrected version |
| SseClient.KeepsQueryExample | src/mcp/client/sse.py:21-22 | `http://h?did=a` keeps its query as written; the corrected version drops it |
| SseClient.RemoveRequestParamsAsWrittenMovesHost | src/mcp/client/sse.py:21-22 | As written, a path starting with `//n` becomes the host of the result, while the corrected version keeps the host |
| SseClient.MovesHostExample | src/mcp/client/sse.py:21-22 | `http://h//x?did=a` becomes `http://x` as written; the corrected version keeps host `h` |
| SseClient.SseTarget | src/mcp/client/sse.py:62-66 | The client raises iff the resolved URL starts with neither `sse://` nor `sses://` |
| SseClient.HttpUrl | src/mcp/client/sse.py:65-66 | A URL holding neither `sse://` nor `sses://` is left as it is |
| SseClient.RewriteSse | src/mcp/client/sse.py:65-66 | `sse://` at the start becomes `http://` and the rest is rewritten on its own |
| SseClient.RewriteSses | src/mcp/client/sse.py:65-66 | `sses://` becomes `https://`; the first replacement never matches inside it |
| SseClient.SseTargetPlain | src/mcp/client/sse.py:62-66 | A URL with no further scheme text keeps everything after its scheme |
| SseClient.RewriteReachesQuery | src/mcp/client/sse.py:65-66 | The rewrite also changes an `sse://` that appears later in the URL, not only the scheme |
| SseClient.OnEvent | src/mcp/client/sse.py:93-126 | An endpoint event is accepted iff no endpoint is known yet and the joined URL has the connection's origin; failures are fatal. A message event forwards one value, the message or its validation error. Other events change nothing |
| SseClient.Dispatch | src/mcp/client/sse.py:86-131 | An event that cannot be opened, or whose content is not an event object, stops the reader with a fatal failure; otherwise the inner event is acted on. Each wire event forwards at most one non-fatal value. A reported endpoint is never replaced and always has the connection's origin. Every stop is fatal |
| SseClient.DispatchSealed | src/mcp/client/sse.py:88-90 | An event the server sealed is acted on as the event it carries |
| SseClient.ReadStreamCons | src/mcp/client/sse.py:86-131 | Reading a stream is acting on its first event and, unless that stopped, reading the rest |
| SseClient.ReadStream | src/mcp/client/sse.py:86-131 | At most one value per event. Only the last value can be fatal. A known endpoint is kept, and a new one has the connection's origin |
| SseClient.ReadsMessages | src/mcp/client/sse.py:112-124 | With the endpoint known, the server's message events are forwarded as exactly the server's messages, in order |
| SseClient.ReadsServerStream | src/mcp/client/sse.py:86-131 | For a callback path with one leading `/`, reading the server's stream reports that path joined onto the connection URL, then every server message in order |
| SseClient.ForeignEndpointRejected | src/mcp/client/sse.py:95-108 | An endpoint of another origin ends the reader with one fatal failure and no endpoint |
| SseClient.UnreadableEventEndsReader | src/mcp/client/sse.py:86-131 | An event that cannot be opened or loaded ends the reader with its failure as the one value forwarded, the endpoint unchanged, and nothing after it read |
| SseClient.InvalidMessageForwarded | src/mcp/client/sse.py:112-121 | A message that fails validation puts its error on the stream and reading goes on |
| SseClient.UnknownEventIgnored | src/mcp/client/sse.py:125-126 | An event of another kind is skipped |
| SseClient.PostWriter | src/mcp/client/sse.py:133-155 | The i-th POST goes to the endpoint as `application/tsp`, carrying the i-th message sealed. Every POST before the last succeeded, and there is no POST past the messages |
| SseClient.PostWriterStopsAtFailure | src/mcp/client/sse.py:145-152 | The writer stops early only at a failed request, and if every request succeeded, every message was posted |
| SseClient.PostsAreReadable | src/mcp/client/sse.py:143-148 | Every POST passes the server's Content-Type check, and its body opens and validates to the message it carries |
| SseClient.AllPostedWhenAccepted | src/mcp/client/sse.py:136-150 | When the server accepts every request, every message is posted |
| WsServer.AcceptedSubprotocol | src/mcp/server/websocket.py:33 | The server answers every handshake with the `mcp` subprotocol |
| WsServer.Validated | src/mcp/server/websocket.py:60-67 | A payload becomes a received message iff it validates, and otherwise its validation error; neither is fatal |
| WsServer.ServerStep | src/mcp/server/websocket.py:47-67 | A frame is skipped exactly when it decodes and its envelope names another receiver. The reader raises exactly when the frame does not decode, its envelope cannot be read, or a frame addressed to this server cannot be opened; only a validation error becomes a value. A delivered value is the validation of the opened payload and is never fatal |
| WsServer.ServerRead | src/mcp/server/websocket.py:44-67 | The reader queues at most one non-fatal value per frame |
| WsServer.ServerWrite | src/mcp/server/websocket.py:71-84 | One text frame per outgoing message, in order, each the message sealed to the user and base64url-encoded |
| WsServer.ServerReadAppend | src/mcp/server/websocket.py:47-67 | Reading two runs of frames is reading the first and then, unless it raised, the second |
| WsServer.ServerSkipsOtherReceiver | src/mcp/server/websocket.py:52-55 | A frame sealed to another identity is skipped whatever it carries |
| WsServer.ServerForwardsInvalid | src/mcp/server/websocket.py:60-64 | A payload that fails validation puts its error on the stream and reading goes on |
| WsServer.ServerCrashesOnGarbage | src/mcp/server/websocket.py:49 | A frame that is not base64url ends the reader: what was read before stays, nothing after is read |
| WsClient.Connect | src/mcp/client/websocket.py:56-63 | Set-up succeeds exactly when identity set-up succeeds, the server resolves with that DID, and the resolved URL names a WebSocket scheme. A successful set-up has that DID and URL and requests `mcp` |
| WsClient.TransportsExclusive | src/mcp/client/websocket.py:59-60 | A URL the WebSocket check accepts is refused by the SSE check, and the reverse |
| WsClient.ConnectRoutesDid | src/mcp/client/websocket.py:57-63 | After set-up the URL's `did` parameter is the client's DID (absent when that DID is empty), and the subprotocol the server answers is one the client asked for |
| WsClient.ClientStep | src/mcp/client/websocket.py:71-82 | The client never skips a frame. It raises exactly when the frame does not decode or cannot be opened; only a validation error becomes a value. A delivered value is the validation of the opened payload and is never fatal |
| WsClient.ClientRead | src/mcp/client/websocket.py:65-82 | At most one non-fatal value per frame, and exactly one per frame when nothing raised |
| WsClient.ClientWrite | src/mcp/client/websocket.py:84-98 | One text frame per outgoing message, in order, each the message sealed to the server and base64url-encoded |
| WsClient.ServerStepOfClientFrame | src/mcp/client/websocket.py:92-98 | The server's reader takes a client frame addressed to it as the message it carries |
| WsClient.ClientStepOfServerFrame | src/mcp/server/websocket.py:75-84 | The client's reader takes a server frame as the message it carries |
| WsClient.ServerReadsClient | src/mcp/client/websocket.py:84-98 | Client to server: the server reads what the client wrote as exactly the client's messages, in order, without raising |
| WsClient.ClientReadsServer | src/mcp/server/websocket.py:71-84 | Server to client: the client reads what the server wrote as exactly the server's messages, in order, without raising |
| WsClient.ClientIgnoresReceiver | src/mcp/client/websocket.py:74-79 | Unlike the server, the client delivers a frame sealed to any identity |
| WsClient.ClientForwardsInvalid | src/mcp/client/websocket.py:77-82 | A payload that fails validation puts its error on the client's stream and reading goes on |
| Base64Url.Encode | src/mcp/server/websocket.py:82 | Only empty input encodes to empty text, and the output uses only the base64url alphabet and padding |
| Base64Url.Decode | src/mcp/server/websocket.py:49 | Decoding never yields more bytes than there were characters |
| Base64Url.EncodeLength | src/mcp/server/websocket.py:82 | Every three bytes, and a final one or two, take four characters |
| Base64Url.RoundTrip | src/mcp/server/websocket.py:49-82 | Decoding undoes encoding for every byte string |
| Query.Put | src/mcp/shared/tmcp.py:71 | After `d[k] = v`, `k` reads `v`, every other key reads as before, and keys stay unique |
| Query.Update | src/mcp/shared/tmcp.py:71 | After `d.update(xs)`, a key given in `xs` reads its last value there and others read as before |
| Query.DictOfCollapses | src/mcp/shared/tmcp.py:70 | `dict(parse_qsl(q))` has one item per key, holding the last value given for it |
| Query.UpdateIdempotent | src/mcp/shared/tmcp.py:71 | Updating twice with the same parameters is updating once |
| Query.DictOfDict | src/mcp/shared/tmcp.py:70 | `dict` of a dict's items is that dict |
| UrlLib.Split | src/mcp/shared/tmcp.py:69 | `urlsplit` yields a lower-cased scheme, a host, a path free of `?` and `#`, and a path starting with `/` whenever there is a host |
| UrlLib.SplitUnsplit | src/mcp/shared/tmcp.py:69-73 | Splitting what `urlunsplit` wrote from well-formed components gives those components back |
| UrlLib.Unsplit | src/mcp/shared/tmcp.py:73 | `urlunparse` writes a non-empty scheme first, followed by `:`, a non-empty fragment last after `#`, and a non-empty query after `?` just before it |
| UrlLib.UnsplitKeepsOrigin | src/mcp/shared/tmcp.py:72-73 | Writing components out keeps scheme and host readable |
| UrlLib.JoinSegmentsOfSegments | src/mcp/client/sse.py:95 | Splitting a path on `/` and joining it back gives the path |
| UrlLib.RemoveDotsNoDots | src/mcp/client/sse.py:95 | A path with no dot segments passes dot removal unchanged |
| UrlLib.MergeAbsolutePath | src/mcp/client/sse.py:95 | Joining an absolute path without dot segments onto a base path yields that path |
| UrlLib.JoinPathReference | src/mcp/client/sse.py:95 | `urljoin` with a path-only reference keeps the base's scheme and host and takes the reference's path, query and fragment |
| UrlLib.JoinAbsolutePathKeepsOrigin | src/mcp/client/sse.py:95-103 | Joining a path with one leading `/` onto an HTTP(S) URL keeps the connection's origin, so such an endpoint passes the origin check |
| UrlLib.Join | src/mcp/client/sse.py:95 | `urljoin` with an empty side gives the other back, and a reference with a scheme of its own that differs from the base's, or that `urljoin` does not resolve against, is returned as it is |
| UrlLib.Quote | src/mcp/server/sse.py:148 | `quote` emits safe characters and `%XX` escapes with upper-case hex digits and nothing else, leaves safe text unchanged, and keeps a leading `/` |
| UrlLib.QuoteConcat | src/mcp/server/sse.py:148 | `quote` works character by character: quoting a concatenation concatenates the quotes |
| UrlLib.QuoteChar | src/mcp/server/sse.py:148 | A safe character is kept, and any other character becomes `%XX` escapes that read back as exactly its UTF-8 bytes |
| UrlLib.PercentEncodeDecodes | src/mcp/server/sse.py:148 | Reading `%XX` escapes back gives exactly the bytes that were escaped |
| UrlLib.QuoteKeepsDoubleSlash | src/mcp/server/sse.py:148 | Quoting starts with `//` iff the input does |

## Left out

- Concurrency, cancellation and the zero-capacity memory streams, including the cancellation of both WebSocket tasks when the client's context is left: readers and writers are modelled as folds over their whole input, so blocking is not modelled. This includes the interleaving of `sse_writer` with the POST handler and `tg.start`.
- `anyio.ClosedResourceError` and `websocket.close()`: a writer that was closed by a disconnect is tracked as a closed handle, but a send on it is not modelled.
- `timeout`, `sse_read_timeout` and every other clock: left out as I/O.
- Logging, `print` and `tsp.color_print`: no effect on the behaviour.
- The demo servers and examples: they are not part of the transport core.
- `TmcpIdentityManager`, `get_connection` and `resolve_server_url` are not part of this model. The SSE client's and server's connection to a peer is a parameter (`Channel`, `connections`).
- The TSP wallet, the DID directory and its HTTP publishing, pydantic, `json` and `parse_qsl`/`urlencode` are foreign calls. They are function-valued parameters constrained by stated laws, and one `SecureStore` serves both parties.
- The `ServerMessageMetadata(request_context=request)` a delivered POST carries: the model delivers only the message.
- `Text.Lower` lower-cases ASCII letters only; Python's `str.lower` also folds non-ASCII letters.
- `Base64Url.Decode`: strict decoding, where Python's `urlsafe_b64decode` is lenient. Python maps `-` and `_` to `+` and `/` and then decodes non-strictly, so it also accepts the following text, which the model rejects:
  - it accepts `+` and `/` as the values 62 and 63 (`+///` decodes);
  - it discards characters outside the alphabet;
  - it stops at the first group closed by padding (`QQ==QUJD` gives `b"A"`);
  - it ignores a stray `=` after a complete group (`QUJD=` gives `b"ABC"`).
  On such a frame `WsServer.ServerStep` and `WsClient.ClientStep` model a crash of the reader, where the source decodes the bytes and goes on to open them. On such a POST body `SseServer.HandlePost` models a crash (the `urlsafe_b64decode` of src/mcp/server/sse.py:203), where the source reads the envelope and goes on. Every frame the peer writes with `urlsafe_b64encode` is canonical, and both models decode it (`Base64Url.RoundTrip`).
- `UrlLib.Split` follows `urlsplit`. It does not split off `;params` as `urlparse` does, and it does not strip whitespace or control characters.
- `SseClient.RemoveRequestParamsAsWrittenAgrees`: stated only for paths without `.` or `..` segments, which `urljoin` would collapse.
- `Tmcp.AddRequestParamsMerges`: stated only for URLs with a network location. Without one, `urlunparse` may not give the components back.
- `Tmcp.AddRequestParamsIdempotent`: with an empty parameter value, only the parsed query is the same after a second call, not the URL. From `http://h/p?x=1&b=2` and `{x: ""}`, the first call writes the blank item in the place of `x` (`?x=&b=2`). The second call's `parse_qsl` drops it and `update` appends it again, so the text becomes `?b=2&x=`. `Tmcp.AddRequestParamsIdempotentUrl` proves equal URLs when no value is empty.
- `SseClient.PostWriter`: the network error of a POST is folded into a missing status (`None`), so it stops the writer like a non-2xx response does.
- `SseClient.OnEvent`: a second `endpoint` event is modelled as a fatal error. The source would call `task_status.started` a second time, which raises inside the reader.

## Findings

| source | as written | input that shows it | evidently intended | confidence | as-written member | corrected member |
|---|---|---|---|---|---|---|
| src/mcp/server/sse.py:133 | The writer registered for a peer DID is never removed when its stream disconnects (lines 180-185 close the streams only) | `Connect("P", 0)`, then `Disconnect("P", 0)`, then a valid POST from `P` | The disconnect removes the entry, so a later POST from `P` gets 404 instead of 202 on a closed writer | not executed | SseServer.PostAfterDisconnect | SseServer.ReplayTracksLatest |
| src/mcp/client/sse.py:21-22 | `urljoin(url, urlparse(url).path)` reads a path starting with `//` as a new host | `http://h//x?did=a` gives `http://x` | The same URL without query and fragment: `http://h//x`. The only caller is the `logger.debug` at client/sse.py:70, so only the logged text is wrong and no connection is affected | not executed | SseClient.MovesHostExample | SseClient.RemoveRequestParams |
| src/mcp/client/sse.py:21-22 | `urljoin(url, "")` returns `url`, so an empty path leaves the query on | `http://h?did=a` comes back unchanged | `http://h`, without the `did` parameter. The only caller is the `logger.debug` at client/sse.py:70, so the `did` parameter shows up in the log and no connection is affected | not executed | SseClient.KeepsQueryExample | SseClient.RemoveRequestParams |

=== FILE: base64url.dfy ===
/**
 * The "base64url" encoding of section 5 of RFC 4648 (URL- and filename-safe
 * alphabet, `=` padding). The encoder is Python's `base64.urlsafe_b64encode`.
 * The decoder is strict: it accepts text in whole groups of four alphabet
 * characters, with padding only closing the last group, and rejects
 * everything else. Python's `base64.urlsafe_b64decode` is more lenient;
 * the cases where the two differ are listed with the model's omissions.
 */
module Base64Url {
  import opened Wrappers

  /** An octet, as Python's `bytes` holds it. */
  type Byte = x: int | 0 <= x < 256
  type Bytes = seq<Byte>
  /** A 6-bit group value. */
  type Sextet = x: int | 0 <= x < 64

  const Pad: char := '='

  /** The characters of the base64url alphabet (padding excluded). */
  predicate InAlphabet(c: char) {
    ('A' <= c <= 'Z') || ('a' <= c <= 'z') || ('0' <= c <= '9') || c == '-' || c == '_'
  }

  /** Table 2 of RFC 4648: the character for a 6-bit value. */
  function CharOf(v: Sextet): (c: char)
    ensures InAlphabet(c)
  {
    if v < 26 then ('A' as int + v) as char
    else if v < 52 then ('a' as int + (v - 26)) as char
    else if v < 62 then ('0' as int + (v - 52)) as char
    else if v == 62 then '-'
    else '_'
  }

  /** The 6-bit value of an alphabet character; `None` outside the alphabet. */
  function ValueOf(c: char): (r: Option<Sextet>)
    ensures r.Some? <==> InAlphabet(c)
    ensures r.Some? ==> CharOf(r.value) == c
  {
    if 'A' <= c <= 'Z' then Some(c as int - 'A' as int)
    else if 'a' <= c <= 'z' then Some(c as int - 'a' as int + 26)
    else if '0' <= c <= '9' then Some(c as int - '0' as int + 52)
    else if c == '-' then Some(62)
    else if c == '_' then Some(63)
    else None
  }

  /** Reading back the character of a 6-bit value gives that value. */
  lemma ValueOfCharOf(v: Sextet)
    ensures ValueOf(CharOf(v)) == Some(v)
  {
  }

  /** Three bytes as four characters (section 4 of RFC 4648, bit groups of six). */
  function EncodeQuantum(b0: Byte, b1: Byte, b2: Byte): string {
    [CharOf(b0 / 4), CharOf((b0 % 4) * 16 + b1 / 16), CharOf((b1 % 16) * 4 + b2 / 64), CharOf(b2 % 64)]
  }

  /** A final single byte: two characters and two pad characters. */
  function EncodeOne(b0: Byte): string {
    [CharOf(b0 / 4), CharOf((b0 % 4) * 16), Pad, Pad]
  }

  /** A final pair of bytes: three characters and one pad character. */
  function EncodeTwo(b0: Byte, b1: Byte): string {
    [CharOf(b0 / 4), CharOf((b0 % 4) * 16 + b1 / 16), CharOf((b1 % 16) * 4), Pad]
  }

  /** `base64.urlsafe_b64encode(b).decode()`. */
  function Encode(b: Bytes): (r: string)
    ensures |b| > 0 <==> |r| > 0
    ensures forall i :: 0 <= i < |r| ==> InAlphabet(r[i]) || r[i] == Pad
    decreases |b|
  {
    if |b| == 0 then ""
    else if |b| == 1 then EncodeOne(b[0])
    else if |b| == 2 then EncodeTwo(b[0], b[1])
    else EncodeQuantum(b[0], b[1], b[2]) + Encode(b[3..])
  }

  /** The first and second byte carried by leading sextets. */
  function Byte0(v0: Sextet, v1: Sextet): Byte { v0 * 4 + v1 / 16 }
  function Byte1(v1: Sextet, v2: Sextet): Byte { (v1 % 16) * 16 + v2 / 4 }
  function Byte2(v2: Sextet, v3: Sextet): Byte { (v2 % 4) * 64 + v3 }

  /** Four alphabet characters as three bytes. */
  function DecodeQuantum(q: string): (r: Option<Bytes>)
    requires |q| == 4
    ensures r.Some? ==> |r.value| == 3
  {
    match (ValueOf(q[0]), ValueOf(q[1]), ValueOf(q[2]), ValueOf(q[3]))
    case (Some(v0), Some(v1), Some(v2), Some(v3)) =>
      Some([Byte0(v0, v1), Byte1(v1, v2), Byte2(v2, v3)])
    case _ => None
  }

  /** The last group of four characters, which may carry one or two pad characters. */
  function DecodeFinal(q: string): (r: Option<Bytes>)
    requires |q| == 4
    ensures r.Some? ==> 1 <= |r.value| <= 3
  {
    if q[2] == Pad && q[3] == Pad then
      match (ValueOf(q[0]), ValueOf(q[1]))
      case (Some(v0), Some(v1)) => Some([Byte0(v0, v1)])
      case _ => None
    else if q[3] == Pad then
      match (ValueOf(q[0]), ValueOf(q[1]), ValueOf(q[2]))
      case (Some(v0), Some(v1), Some(v2)) => Some([Byte0(v0, v1), Byte1(v1, v2)])
      case _ => None
    else DecodeQuantum(q)
  }

  /**
   * Strict base64url decoding: `None` for text that is not whole groups of
   * four alphabet characters with padding only closing the last group.
   * `None` stands for the `binascii.Error` that Python raises on a wrong
   * length or misplaced padding; Python decodes some of the other rejected
   * text, as listed with the model's omissions.
   */
  function Decode(s: string): (r: Option<Bytes>)
    ensures r.Some? ==> |r.value| <= |s|
    decreases |s|
  {
    if |s| == 0 then Some([])
    else if |s| < 4 then None
    else if |s| == 4 then DecodeFinal(s)
    else
      match (DecodeQuantum(s[..4]), Decode(s[4..]))
      case (Some(head), Some(tail)) => Some(head + tail)
      case _ => None
  }

  /** The first byte comes back from the first two sextets, whatever the low bits of the second. */
  lemma Byte0Back(b0: Byte, low: int)
    requires 0 <= low < 16
    ensures (b0 % 4) * 16 + low < 64
    ensures Byte0(b0 / 4, (b0 % 4) * 16 + low) == b0
  {
    var v1 := (b0 % 4) * 16 + low;
    assert v1 / 16 == b0 % 4;
  }

  /** The second byte comes back from the second and third sextets. */
  lemma Byte1Back(b0: Byte, b1: Byte, low: int)
    requires 0 <= low < 4
    ensures (b1 % 16) * 4 + low < 64
    ensures Byte1((b0 % 4) * 16 + b1 / 16, (b1 % 16) * 4 + low) == b1
  {
    var v1, v2 := (b0 % 4) * 16 + b1 / 16, (b1 % 16) * 4 + low;
    assert v1 % 16 == b1 / 16;
    assert v2 / 4 == b1 % 16;
  }

  /** The third byte comes back from the third and fourth sextets. */
  lemma Byte2Back(b1: Byte, b2: Byte)
    ensures Byte2((b1 % 16) * 4 + b2 / 64, b2 % 64) == b2
  {
    var v2 := (b1 % 16) * 4 + b2 / 64;
    assert v2 % 4 == b2 / 64;
  }

  lemma QuantumRoundTrip(b0: Byte, b1: Byte, b2: Byte)
    ensures DecodeQuantum(EncodeQuantum(b0, b1, b2)) == Some([b0, b1, b2])
  {
    Byte0Back(b0, b1 / 16);
    Byte1Back(b0, b1, b2 / 64);
    Byte2Back(b1, b2);
    var v0, v1, v2, v3 := b0 / 4, (b0 % 4) * 16 + b1 / 16, (b1 % 16) * 4 + b2 / 64, b2 % 64;
    ValueOfCharOf(v0);
    ValueOfCharOf(v1);
    ValueOfCharOf(v2);
    ValueOfCharOf(v3);
  }

  lemma OneRoundTrip(b0: Byte)
    ensures DecodeFinal(EncodeOne(b0)) == Some([b0])
  {
    Byte0Back(b0, 0);
    ValueOfCharOf(b0 / 4);
    ValueOfCharOf((b0 % 4) * 16);
  }

  lemma TwoRoundTrip(b0: Byte, b1: Byte)
    ensures DecodeFinal(EncodeTwo(b0, b1)) == Some([b0, b1])
  {
    Byte0Back(b0, b1 / 16);
    Byte1Back(b0, b1, 0);
    ValueOfCharOf(b0 / 4);
    ValueOfCharOf((b0 % 4) * 16 + b1 / 16);
    ValueOfCharOf((b1 % 16) * 4);
  }

  /**
   * The first group of a text of three or more bytes, handed back as an
   * unnamed string so that callers reason about its properties only.
   */
  lemma FirstQuantum(b: Bytes) returns (head: string)
    requires |b| >= 3
    ensures |head| == 4 && head[2] != Pad && head[3] != Pad
    ensures DecodeQuantum(head) == Some(b[..3])
    ensures Encode(b) == head + Encode(b[3..])
  {
    head := EncodeQuantum(b[0], b[1], b[2]);
    assert b[..3] == [b[0], b[1], b[2]];
    EncodeUnfold(b);
    QuantumRoundTrip(b[0], b[1], b[2]);
  }

  /** Exactly three bytes make one unpadded group, decoded as a full quantum. */
  lemma ThreeRoundTrip(b: Bytes)
    requires |b| == 3
    ensures Decode(Encode(b)) == Some(b)
  {
    assert b[..3] == b && b[3..] == [];
    var head := FirstQuantum(b);
    assert Encode(b) == head + "" == head;
  }

  /** Decoding a full quantum followed by further groups decodes each part. */
  lemma DecodeQuantumThen(q: string, t: string, head: Bytes, tail: Bytes)
    requires |q| == 4 && |t| > 0
    requires DecodeQuantum(q) == Some(head) && Decode(t) == Some(tail)
    ensures Decode(q + t) == Some(head + tail)
  {
    var s := q + t;
    assert s[..4] == q && s[4..] == t;
  }

  /** Encoding three or more bytes starts with one full quantum. */
  lemma EncodeUnfold(b: Bytes)
    requires |b| >= 3
    ensures Encode(b) == EncodeQuantum(b[0], b[1], b[2]) + Encode(b[3..])
  {
  }

  /** Every three bytes, and a final one or two, take four characters. */
  lemma {:induction false} EncodeLength(b: Bytes)
    ensures |Encode(b)| == 4 * ((|b| + 2) / 3)
    decreases |b|
  {
    if |b| > 2 {
      EncodeLength(b[3..]);
      assert (|b| + 2) / 3 == (|b[3..]| + 2) / 3 + 1;
    }
  }

  /** Four or more bytes: a full quantum, then the rest, which round-trips on its own. */
  lemma LongRoundTrip(b: Bytes)
    requires |b| > 3 && Decode(Encode(b[3..])) == Some(b[3..])
    ensures Decode(Encode(b)) == Some(b)
  {
    assert b[..3] + b[3..] == b;
    var head := FirstQuantum(b);
    ConcatRoundTrip(head, Encode(b[3..]), b[..3], b[3..]);
  }

  /** Gluing a decodable quantum onto a decodable non-empty text. */
  lemma ConcatRoundTrip(head: string, tail: string, q: Bytes, rest: Bytes)
    requires |head| == 4 && |tail| > 0
    requires DecodeQuantum(head) == Some(q) && Decode(tail) == Some(rest)
    ensures Decode(head + tail) == Some(q + rest)
  {
    DecodeQuantumThen(head, tail, q, rest);
  }

  /** Decoding undoes encoding for every byte string. */
  lemma {:induction false} RoundTrip(b: Bytes)
    ensures Decode(Encode(b)) == Some(b)
    decreases |b|
  {
    if |b| == 0 {
    } else if |b| == 1 {
      OneRoundTrip(b[0]);
      assert b == [b[0]];
    } else if |b| == 2 {
      TwoRoundTrip(b[0], b[1]);
      assert b == [b[0], b[1]];
    } else if |b| == 3 {
      ThreeRoundTrip(b);
    } else {
      RoundTrip(b[3..]);
      LongRoundTrip(b);
    }
  }
}

=== FILE: query.dfy ===
/**
 * Python dictionaries over strings, as the query-string helpers use them:
 * a dict is the sequence of its items in insertion order, and
 * `dict(pairs)` / `d.update(...)` are successive item assignments.
 */
module Query {
  import opened Wrappers

  /** Key/value items, e.g. the output of `parse_qsl` or the items of a dict. */
  type Pairs = seq<(string, string)>

  /** `d.get(k)`: the value of the first item whose key is `k`. */
  function Get(d: Pairs, k: string): Option<string>
    decreases |d|
  {
    if |d| == 0 then None
    else if d[0].0 == k then Some(d[0].1)
    else Get(d[1..], k)
  }

  /** No key occurs twice, as in every Python dict. */
  predicate UniqueKeys(d: Pairs)
    decreases |d|
  {
    |d| == 0 || (Get(d[1..], d[0].0).None? && UniqueKeys(d[1..]))
  }

  /** The value of the LAST item whose key is `k` in a list that may repeat keys. */
  function LastValue(xs: Pairs, k: string): Option<string>
    decreases |xs|
  {
    if |xs| == 0 then None
    else
      var later := LastValue(xs[1..], k);
      if later.Some? then later
      else if xs[0].0 == k then Some(xs[0].1)
      else None
  }

  /** `d[k] = v`: an existing key keeps its position and takes the new value; a new key goes last. */
  function Put(d: Pairs, k: string, v: string): (r: Pairs)
    ensures forall j :: Get(r, j) == if j == k then Some(v) else Get(d, j)
    ensures UniqueKeys(d) ==> UniqueKeys(r)
    decreases |d|
  {
    if |d| == 0 then [(k, v)]
    else if d[0].0 == k then [(k, v)] + d[1..]
    else [d[0]] + Put(d[1..], k, v)
  }

  /** Assigning each item of `xs` in turn, as `d.update(xs)` and `dict(xs)` do. */
  function Update(d: Pairs, xs: Pairs): (r: Pairs)
    ensures forall j :: Get(r, j) == if LastValue(xs, j).Some? then LastValue(xs, j) else Get(d, j)
    ensures UniqueKeys(d) ==> UniqueKeys(r)
    decreases |xs|
  {
    if |xs| == 0 then d else Update(Put(d, xs[0].0, xs[0].1), xs[1..])
  }

  /** `dict(xs)`. */
  function DictOf(xs: Pairs): Pairs {
    Update([], xs)
  }

  /** `dict(xs)` keeps one item per key, holding the last value given for it. */
  lemma DictOfCollapses(xs: Pairs)
    ensures UniqueKeys(DictOf(xs))
    ensures forall k :: Get(DictOf(xs), k) == LastValue(xs, k)
  {
  }

  /** In a list without repeated keys, the last value of a key is its only value. */
  lemma {:induction false} LastValueOfUnique(xs: Pairs, k: string)
    requires UniqueKeys(xs)
    ensures LastValue(xs, k) == Get(xs, k)
    decreases |xs|
  {
    if |xs| > 0 {
      LastValueOfUnique(xs[1..], k);
      if xs[0].0 == k {
        assert Get(xs[1..], k).None?;
      }
    }
  }

  /** Assigning a value a key already has changes nothing. */
  lemma {:induction false} PutPresent(d: Pairs, k: string, v: string)
    requires Get(d, k) == Some(v)
    ensures Put(d, k, v) == d
    decreases |d|
  {
    if d[0].0 != k {
      PutPresent(d[1..], k, v);
    }
  }

  /** Updating with items every one of which is already present changes nothing. */
  lemma {:induction false} UpdateStable(d: Pairs, xs: Pairs)
    requires forall i :: 0 <= i < |xs| ==> Get(d, xs[i].0) == Some(xs[i].1)
    ensures Update(d, xs) == d
    decreases |xs|
  {
    if |xs| > 0 {
      PutPresent(d, xs[0].0, xs[0].1);
      UpdateStable(d, xs[1..]);
    }
  }

  /**
   * Updating twice with the same dict gives exactly the dict (items and
   * order) that updating once gives.
   */
  lemma UpdateIdempotent(d: Pairs, params: Pairs)
    requires UniqueKeys(params)
    ensures Update(Update(d, params), params) == Update(d, params)
  {
    var once := Update(d, params);
    forall i | 0 <= i < |params|
      ensures Get(once, params[i].0) == Some(params[i].1)
    {
      LastValueOfUnique(params, params[i].0);
      FirstMatchOfUnique(params, i);
    }
    UpdateStable(once, params);
  }

  /** In a dict, looking up the key of an item yields that item's value. */
  lemma {:induction false} FirstMatchOfUnique(d: Pairs, i: nat)
    requires UniqueKeys(d) && i < |d|
    ensures Get(d, d[i].0) == Some(d[i].1)
    decreases i
  {
    if i > 0 {
      FirstMatchOfUnique(d[1..], i - 1);
      assert d[1..][i - 1] == d[i];
      assert d[0].0 != d[i].0;
    }
  }

  /** Assigning keys none of which is present appends the items in order. */
  lemma {:induction false} UpdateFresh(acc: Pairs, d: Pairs)
    requires UniqueKeys(d)
    requires forall i :: 0 <= i < |d| ==> Get(acc, d[i].0).None?
    ensures Update(acc, d) == acc + d
    decreases |d|
  {
    if |d| > 0 {
      var acc' := acc + [d[0]];
      assert Update(acc, d) == Update(acc', d[1..]) by {
        PutFresh(acc, d[0].0, d[0].1);
      }
      assert UniqueKeys(d[1..]);
      FreshAfterPut(acc, d);
      UpdateFresh(acc', d[1..]);
      assert acc' + d[1..] == acc + d;
    }
  }

  /** After the first item is appended, the keys of the remaining items are still absent. */
  lemma FreshAfterPut(acc: Pairs, d: Pairs)
    requires UniqueKeys(d) && |d| > 0
    requires forall i :: 0 <= i < |d| ==> Get(acc, d[i].0).None?
    ensures forall i :: 0 <= i < |d[1..]| ==> Get(acc + [d[0]], d[1..][i].0).None?
  {
    forall i | 0 <= i < |d[1..]|
      ensures Get(acc + [d[0]], d[1..][i].0).None?
    {
      var k := d[1..][i].0;
      assert k == d[i + 1].0;
      FirstMatchOfUnique(d[1..], i);
      assert k != d[0].0;
      GetAppend(acc, d[0], k);
    }
  }

  /** Looking up a key in a dict with one more item at the end. */
  lemma {:induction false} GetAppend(d: Pairs, x: (string, string), k: string)
    ensures Get(d + [x], k) == if Get(d, k).Some? then Get(d, k) else if x.0 == k then Some(x.1) else None
    decreases |d|
  {
    if |d| > 0 {
      assert (d + [x])[1..] == d[1..] + [x];
      GetAppend(d[1..], x, k);
    } else {
      assert d + [x] == [x];
    }
  }

  /** Assigning an absent key appends one item. */
  lemma {:induction false} PutFresh(d: Pairs, k: string, v: string)
    requires Get(d, k).None?
    ensures Put(d, k, v) == d + [(k, v)]
    decreases |d|
  {
    if |d| > 0 {
      PutFresh(d[1..], k, v);
      assert [d[0]] + (d[1..] + [(k, v)]) == d + [(k, v)];
    }
  }

  /** `dict(items)` of the items of a dict is that dict. */
  lemma DictOfDict(d: Pairs)
    requires UniqueKeys(d)
    ensures DictOf(d) == d
  {
    UpdateFresh([], d);
    assert [] + d == d;
  }

  // ---------------------------------------------------------------------
  // Blank values, which `parse_qsl` drops by default
  // ---------------------------------------------------------------------

  /** No item has an empty value, as in everything `parse_qsl` returns. */
  predicate NoBlank(d: Pairs) {
    forall i :: 0 <= i < |d| ==> d[i].1 != ""
  }

  /** The items whose value is not empty, in order. */
  function Filled(d: Pairs): (r: Pairs)
    ensures NoBlank(r)
    decreases |d|
  {
    if |d| == 0 then []
    else if d[0].1 == "" then Filled(d[1..])
    else [d[0]] + Filled(d[1..])
  }

  /** A lookup as it reads after blank values are dropped: an empty value reads as absent. */
  function DropBlank(v: Option<string>): (r: Option<string>)
    ensures r != Some("")
    ensures v != Some("") ==> r == v
  {
    if v == Some("") then None else v
  }

  /** Dropping the blank items of a dict drops exactly the keys whose value is empty, and keeps it a dict. */
  lemma {:induction false} FilledGet(d: Pairs)
    requires UniqueKeys(d)
    ensures UniqueKeys(Filled(d))
    ensures forall k :: Get(Filled(d), k) == DropBlank(Get(d, k))
    decreases |d|
  {
    if |d| > 0 {
      FilledGet(d[1..]);
      var rest := Filled(d[1..]);
      if d[0].1 != "" {
        var r := [d[0]] + rest;
        assert r[0] == d[0] && r[1..] == rest;
        assert Get(rest, d[0].0) == None;
      }
    }
  }

  /** A list with no blank value loses nothing. */
  lemma {:induction false} FilledOfNoBlank(d: Pairs)
    requires NoBlank(d)
    ensures Filled(d) == d
    decreases |d|
  {
    if |d| > 0 {
      assert NoBlank(d[1..]) by {
        forall i | 0 <= i < |d[1..]| ensures d[1..][i].1 != "" {
          assert d[1..][i] == d[i + 1];
        }
      }
      FilledOfNoBlank(d[1..]);
      assert [d[0]] + d[1..] == d;
    }
  }

  /** Assigning a non-empty value keeps a dict free of blank values. */
  lemma {:induction false} PutNoBlank(d: Pairs, k: string, v: string)
    requires NoBlank(d) && v != ""
    ensures NoBlank(Put(d, k, v))
    decreases |d|
  {
    if |d| > 0 && d[0].0 != k {
      assert NoBlank(d[1..]) by {
        forall i | 0 <= i < |d[1..]| ensures d[1..][i].1 != "" {
          assert d[1..][i] == d[i + 1];
        }
      }
      PutNoBlank(d[1..], k, v);
      var r := [d[0]] + Put(d[1..], k, v);
      forall i | 0 <= i < |r| ensures r[i].1 != "" {
        if i > 0 {
          assert r[i] == Put(d[1..], k, v)[i - 1];
        }
      }
    } else if |d| > 0 {
      var r := [(k, v)] + d[1..];
      forall i | 0 <= i < |r| ensures r[i].1 != "" {
        if i > 0 {
          assert r[i] == d[i];
        }
      }
    }
  }

  /** Updating a dict free of blank values with such items keeps it so. */
  lemma {:induction false} UpdateNoBlank(d: Pairs, xs: Pairs)
    requires NoBlank(d) && NoBlank(xs)
    ensures NoBlank(Update(d, xs))
    decreases |xs|
  {
    if |xs| > 0 {
      PutNoBlank(d, xs[0].0, xs[0].1);
      assert NoBlank(xs[1..]) by {
        forall i | 0 <= i < |xs[1..]| ensures xs[1..][i].1 != "" {
          assert xs[1..][i] == xs[i + 1];
        }
      }
      UpdateNoBlank(Put(d, xs[0].0, xs[0].1), xs[1..]);
    }
  }

  /** In a list with no blank value, no key's last value is blank. */
  lemma {:induction false} LastValueNoBlank(xs: Pairs, k: string)
    requires NoBlank(xs)
    ensures LastValue(xs, k) != Some("")
    decreases |xs|
  {
    if |xs| > 0 {
      assert NoBlank(xs[1..]) by {
        forall i | 0 <= i < |xs[1..]| ensures xs[1..][i].1 != "" {
          assert xs[1..][i] == xs[i + 1];
        }
      }
      LastValueNoBlank(xs[1..], k);
    }
  }
}

=== FILE: sse_client.dfy ===
/**
 * The SSE client transport: the transport check and rewrite of the
 * resolved server URL, the reader that learns the POST endpoint and
 * forwards messages, the writer that POSTs sealed messages, and
 * `remove_request_params`.
 */
module SseClient {
  import opened Wrappers
  import opened Text
  import opened UrlLib
  import opened Wire
  import opened TransportSecurity
  import opened SseServer

  // ---------------------------------------------------------------------
  // `remove_request_params`
  // ---------------------------------------------------------------------

  /**
   * `remove_request_params(url)` as written: `urljoin(url, urlparse(url).path)`.
   * With an empty path the URL comes back unchanged, query and all.
   */
  function RemoveRequestParamsAsWritten(url: string): (r: string)
    ensures Split(url, "").path == "" ==> r == url
  {
    Join(url, Split(url, "").path)
  }

  /** The evident intent of `remove_request_params`: the URL without its query and fragment. */
  function RemoveRequestParams(url: string): (r: string)
    ensures Split(url, "").netloc != "" ==> Split(r, "") == Split(url, "").(query := "", fragment := "")
  {
    var p := Split(url, "");
    var stripped := p.(query := "", fragment := "");
    assert p.netloc != "" ==> Split(Unsplit(stripped), "") == stripped by {
      if p.netloc != "" {
        SplitUnsplit(stripped);
      }
    }
    Unsplit(stripped)
  }

  /** Removing the parameters twice is removing them once. */
  lemma RemoveRequestParamsIdempotent(url: string)
    requires Split(url, "").netloc != ""
    ensures RemoveRequestParams(RemoveRequestParams(url)) == RemoveRequestParams(url)
  {
    var once := RemoveRequestParams(url);
    assert Split(once, "") == Split(url, "").(query := "", fragment := "");
  }

  /** A path with no `?`, `#` and a single leading `/` splits into just that path. */
  lemma SplitPlainPath(path: string, default: string)
    requires StartsWith(path, "/") && !StartsWith(path, "//")
    requires '?' !in path && '#' !in path
    ensures Split(path, default) == Parts(default, "", path, "", "")
  {
    assert SplitScheme(path, default) == (default, path);
    assert CutNetloc(path) == ("", path);
    assert CutAt(path, '#') == (path, "");
    assert CutAt(path, '?') == (path, "");
  }

  /**
   * For the URLs the client connects to (HTTP or HTTPS with a host and a
   * path with one leading `/` and no dot segments) the code as written
   * does what is intended: scheme, host and path kept, query and fragment gone.
   */
  lemma RemoveRequestParamsAsWrittenAgrees(url: string)
    requires Split(url, "").scheme in ["http", "https"] && Split(url, "").netloc != ""
    requires StartsWith(Split(url, "").path, "/") && !StartsWith(Split(url, "").path, "//")
    requires forall i :: 0 <= i < |Segments(Split(url, "").path)| ==> !IsDotSegment(Segments(Split(url, "").path)[i])
    ensures RemoveRequestParamsAsWritten(url) == RemoveRequestParams(url)
  {
    var b := Split(url, "");
    SplitPlainPath(b.path, b.scheme);
    MergeAbsolutePath(b.path, b.path);
    assert b.scheme in UsesRelative && b.scheme in UsesNetloc;
    assert url != "" by {
      assert Split("", "").netloc == "";
    }
    JoinPathReference(url, b.path);
  }

  /** `urlsplit` of a path starting with `//` reads its first segment as a network location. */
  lemma SplitNetworkPath(n: string, rest: string, default: string)
    requires NetlocShaped(n) && (rest == "" || rest[0] == '/')
    requires '?' !in rest && '#' !in rest
    ensures Split("//" + n + rest, default) == Parts(default, n, rest, "", "")
  {
    var ref := "//" + n + rest;
    assert ref[0] == '/';
    assert SplitScheme(ref, default) == (default, ref);
    CutNetlocOf(n, rest);
    assert CutAt(rest, '#') == (rest, "");
    assert CutAt(rest, '?') == (rest, "");
  }

  /**
   * As written, a path that starts with `//` is read back by `urljoin` as a
   * network location: the result points at another host, where the
   * intended version keeps the host.
   */
  lemma RemoveRequestParamsAsWrittenMovesHost(p: Parts, n: string, rest: string)
    requires WellFormed(p) && p.scheme in ["http", "https"]
    requires n != "" && NetlocShaped(n) && (rest == "" || rest[0] == '/')
    requires p.path == "//" + n + rest
    ensures RemoveRequestParamsAsWritten(Unsplit(p)) == Unsplit(Parts(p.scheme, n, rest, "", ""))
    ensures Split(RemoveRequestParamsAsWritten(Unsplit(p)), "").netloc == n
    ensures Split(RemoveRequestParams(Unsplit(p)), "").netloc == p.netloc
  {
    SplitUnsplit(p);
    var url := Unsplit(p);
    assert rest == p.path[2 + |n|..];
    assert '?' !in rest && '#' !in rest by {
      AbsentFromSlices(p.path, '?', 2 + |n|, |p.path|);
      AbsentFromSlices(p.path, '#', 2 + |n|, |p.path|);
    }
    SplitNetworkPath(n, rest, p.scheme);
    assert url != "" by {
      UnsplitWithNetloc(p);
    }
    assert p.scheme in UsesRelative && p.scheme in UsesNetloc;
    assert Join(url, p.path) == Unsplit(Parts(p.scheme, n, rest, "", ""));
    SplitUnsplit(Parts(p.scheme, n, rest, "", ""));
  }

  /** The parts of `http://h//x?did=a` are well formed. */
  lemma ExampleWellFormed()
    ensures WellFormed(Parts("http", "h", "//x", "did=a", ""))
  {
    assert Lower("http") == "http";
  }

  /** The two URLs of the smallest instance below, written out. */
  lemma ExampleUrls()
    ensures Unsplit(Parts("http", "h", "//x", "did=a", "")) == "http://h//x?did=a"
    ensures Unsplit(Parts("http", "x", "", "", "")) == "http://x"
  {
  }

  /** The smallest instance: `http://h//x?did=a` becomes `http://x`, where the intended version keeps host `h`. */
  lemma MovesHostExample()
    ensures var p := Parts("http", "h", "//x", "did=a", "");
      && RemoveRequestParamsAsWritten(Unsplit(p)) == Unsplit(Parts("http", "x", "", "", ""))
      && Split(RemoveRequestParams(Unsplit(p)), "").netloc == "h"
  {
    var p := Parts("http", "h", "//x", "did=a", "");
    ExampleWellFormed();
    assert p.path == "//" + "x" + "";
    RemoveRequestParamsAsWrittenMovesHost(p, "x", "");
  }

  /** With an empty path, `http://h?did=a` comes back as it was, where the intended version drops the query. */
  lemma KeepsQueryExample()
    ensures Split(Unsplit(Parts("http", "h", "", "did=a", "")), "").query == "did=a"
    ensures var p := Parts("http", "h", "", "did=a", "");
      && RemoveRequestParamsAsWritten(Unsplit(p)) == Unsplit(p)
      && Split(RemoveRequestParams(Unsplit(p)), "").query == ""
  {
    var p := Parts("http", "h", "", "did=a", "");
    assert Lower("http") == "http";
    assert WellFormed(p);
    SplitUnsplit(p);
  }

  // ---------------------------------------------------------------------
  // The transport check and rewrite of `sse_client`
  // ---------------------------------------------------------------------

  /** Whether a resolved server URL names the SSE transport. */
  predicate UsesSse(url: string) {
    StartsWith(url, "sse://") || StartsWith(url, "sses://")
  }

  /**
   * The two `str.replace` calls that turn the SSE schemes into HTTP ones;
   * a URL holding neither scheme text is left as it is.
   */
  function HttpUrl(url: string): (r: string)
    ensures !Contains(url, "sse://") && !Contains(url, "sses://") ==> r == url
  {
    if !Contains(url, "sse://") && !Contains(url, "sses://") then
      ReplaceAbsent(url, "sse://", "http://");
      ReplaceAbsent(url, "sses://", "https://");
      Replace(Replace(url, "sse://", "http://"), "sses://", "https://")
    else
      Replace(Replace(url, "sse://", "http://"), "sses://", "https://")
  }

  /** The URL the client GETs, or the exception raised before any connection is made. */
  function SseTarget(url: string): (r: Result<string, string>)
    ensures r.Err? <==> !UsesSse(url)
  {
    if !UsesSse(url) then Err("Server does not use SSE for transport: " + url) else Ok(HttpUrl(url))
  }

  /** An `sse://` URL becomes an `http://` one, and the rest is rewritten on its own. */
  lemma RewriteSse(rest: string)
    ensures HttpUrl("sse://" + rest) == "http://" + HttpUrl(rest)
  {
    ReplaceHead("sse://", rest, "http://");
    var y := Replace(rest, "sse://", "http://");
    forall i | 0 <= i < |"http://"| ensures !StartsWith("http://"[i..] + y, "sses://") {
      assert ("http://"[i..] + y)[0] == "http://"[i];
    }
    ReplaceKeepsPrefix("http://", y, "sses://", "https://");
  }

  /** An `sses://` URL becomes an `https://` one; `sse://` never matches inside `sses://`. */
  lemma RewriteSses(rest: string)
    ensures HttpUrl("sses://" + rest) == "https://" + HttpUrl(rest)
  {
    var p := "sses://";
    forall i | 0 <= i < |p| ensures !StartsWith(p[i..] + rest, "sse://") {
      var s := p[i..] + rest;
      if i == 0 {
        assert |s| >= 6 && s[3] == 's';
      } else if i == 1 {
        assert s[1] == 'e';
      } else if i == 3 {
        assert s[1] == ':';
      } else {
        assert s[0] != 's';
      }
    }
    ReplaceKeepsPrefix(p, rest, "sse://", "http://");
    ReplaceHead(p, Replace(rest, "sse://", "http://"), "https://");
  }

  /** A URL with no other occurrence of either scheme keeps everything after the scheme. */
  lemma SseTargetPlain(rest: string)
    requires !Contains(rest, "sse://") && !Contains(rest, "sses://")
    ensures SseTarget("sse://" + rest) == Ok("http://" + rest)
    ensures SseTarget("sses://" + rest) == Ok("https://" + rest)
  {
    RewriteSse(rest);
    RewriteSses(rest);
    ReplaceAbsent(rest, "sse://", "http://");
    ReplaceAbsent(rest, "sses://", "https://");
    assert StartsWith("sse://" + rest, "sse://");
    assert StartsWith("sses://" + rest, "sses://");
  }

  /** A string none of whose characters starts the pattern is left as it is. */
  lemma ReplaceWithoutFirstChar(s: string, pat: string, rep: string)
    requires |pat| > 0 && Lacks(s, pat[0])
    ensures Replace(s, pat, rep) == s
  {
    forall i | 0 <= i < |s| ensures !StartsWith(s[i..] + "", pat) {
      assert (s[i..] + "")[0] == s[i];
    }
    ReplaceKeepsPrefix(s, "", pat, rep);
    assert s + "" == s;
  }

  /** The first replacement on `a + "sse://" + b` when neither part holds an `s`. */
  lemma ReplaceInner(a: string, b: string)
    requires Lacks(a, 's') && Lacks(b, 's')
    ensures Replace(a + ("sse://" + b), "sse://", "http://") == a + ("http://" + b)
  {
    forall i | 0 <= i < |a| ensures !StartsWith(a[i..] + ("sse://" + b), "sse://") {
      assert (a[i..] + ("sse://" + b))[0] == a[i];
    }
    ReplaceKeepsPrefix(a, "sse://" + b, "sse://", "http://");
    ReplaceHead("sse://", b, "http://");
    ReplaceWithoutFirstChar(b, "sse://", "http://");
  }

  /**
   * `str.replace` rewrites every occurrence, not only the scheme: an
   * `sse://` later in the URL (say in the query) is rewritten too.
   */
  lemma RewriteReachesQuery(a: string, b: string)
    requires Lacks(a, 's') && Lacks(b, 's')
    ensures HttpUrl("sse://" + a + "sse://" + b) == "http://" + a + "http://" + b
  {
    var rest := a + ("sse://" + b);
    assert "sse://" + a + "sse://" + b == "sse://" + rest;
    RewriteSse(rest);
    ReplaceInner(a, b);
    var y := a + ("http://" + b);
    assert Lacks("http://", 's');
    LacksConcat("http://", b, 's');
    LacksConcat(a, "http://" + b, 's');
    ReplaceWithoutFirstChar(y, "sses://", "https://");
    assert "http://" + y == "http://" + a + "http://" + b;
  }

  // ---------------------------------------------------------------------
  // `sse_reader`
  // ---------------------------------------------------------------------

  /** Whether two URLs agree in scheme and network location. */
  predicate SameOrigin(a: string, b: string) {
    Split(a, "").scheme == Split(b, "").scheme && Split(a, "").netloc == Split(b, "").netloc
  }

  /** What the reader does with one wire event: go on, maybe with a new endpoint and a forwarded value, or stop. */
  datatype Step = Continue(endpoint: Option<string>, out: seq<Inbound>) | Stop(failure: Failure)

  /** What the reader does with one inner event it has opened and loaded. */
  function OnEvent(url: string, json: JsonRpcCodec, event: SseEvent, endpoint: Option<string>): (s: Step)
    ensures s.Stop? ==> s.failure.Fatal? && event.event == "endpoint"
    ensures s.Continue? ==> |s.out| <= 1 && forall i :: 0 <= i < |s.out| ==> !IsFatal(s.out[i])
    ensures s.Continue? ==> s.endpoint == endpoint || (endpoint.None? && s.endpoint.Some? && SameOrigin(url, s.endpoint.value))
    ensures event.event == "endpoint" ==> (s.Continue? <==> endpoint.None? && SameOrigin(url, Join(url, event.data)))
    ensures s.Continue? && event.event == "endpoint" ==> s == Continue(Some(Join(url, event.data)), [])
    ensures event.event != "endpoint" ==> s.Continue? && s.endpoint == endpoint
    ensures event.event == "message" ==>
      && s.Continue? && |s.out| == 1
      && s.out[0] == (if json.validate(event.data).Ok? then Received(json.validate(event.data).value) else Raised(Invalid(json.validate(event.data).error)))
    ensures event.event != "endpoint" && event.event != "message" ==> s == Continue(endpoint, [])
  {
    if event.event == "endpoint" then
      var endpointUrl := Join(url, event.data);
      if !SameOrigin(url, endpointUrl) then Stop(Fatal("Endpoint origin does not match connection origin: " + endpointUrl))
      else if endpoint.Some? then Stop(Fatal("the endpoint was already reported"))
      else Continue(Some(endpointUrl), [])
    else if event.event == "message" then
      match json.validate(event.data)
      case Err(error) => Continue(endpoint, [Raised(Invalid(error))])
      case Ok(m) => Continue(endpoint, [Received(m)])
    else Continue(endpoint, [])
  }

  /**
   * One iteration of `sse_reader`: open the event's data, load the inner
   * event, then act on its kind.
   */
  function Dispatch(url: string, channel: Channel, codec: EventCodec, json: JsonRpcCodec, wire: SseEvent, endpoint: Option<string>): (s: Step)
    ensures s.Stop? ==> s.failure.Fatal?
    ensures s.Continue? ==> |s.out| <= 1 && forall i :: 0 <= i < |s.out| ==> !IsFatal(s.out[i])
    ensures s.Continue? ==> s.endpoint == endpoint || (endpoint.None? && s.endpoint.Some? && SameOrigin(url, s.endpoint.value))
    ensures channel.open(wire.data).None? || codec.loads(channel.open(wire.data).value).None? ==> s.Stop?
    ensures channel.open(wire.data).Some? && codec.loads(channel.open(wire.data).value).Some?
            ==> s == OnEvent(url, json, codec.loads(channel.open(wire.data).value).value, endpoint)
  {
    match channel.open(wire.data)
    case None => Stop(Fatal("the event could not be opened"))
    case Some(text) =>
      match codec.loads(text)
      case None => Stop(Fatal("the event is not a JSON event object"))
      case Some(event) => OnEvent(url, json, event, endpoint)
  }

  /** An event sealed by the server's end is acted on as the event it carries. */
  lemma DispatchSealed(url: string, channel: Channel, codec: EventCodec, json: JsonRpcCodec, kind: string, data: string, endpoint: Option<string>)
    requires ChannelRoundTrip(channel) && EventRoundTrip(codec)
    ensures Dispatch(url, channel, codec, json, SealedEvent(channel, codec, kind, data), endpoint)
         == OnEvent(url, json, SseEvent(kind, data), endpoint)
  {
    assert channel.open(channel.seal(codec.dumps(SseEvent(kind, data)))) == Some(codec.dumps(SseEvent(kind, data)));
  }

  /** Reading a stream whose first event is `w` is acting on `w` and then reading the rest. */
  lemma ReadStreamCons(url: string, channel: Channel, codec: EventCodec, json: JsonRpcCodec, w: SseEvent, later: seq<SseEvent>, endpoint: Option<string>)
    ensures var s := Dispatch(url, channel, codec, json, w, endpoint);
      var rest := ReadStream(url, channel, codec, json, later, if s.Continue? then s.endpoint else endpoint);
      ReadStream(url, channel, codec, json, [w] + later, endpoint)
        == if s.Stop? then Run(endpoint, [Raised(s.failure)]) else Run(rest.endpoint, s.out + rest.enqueued)
  {
    assert ([w] + later)[0] == w;
    assert ([w] + later)[1..] == later;
  }

  /** The endpoint the reader reported, if any, and every value it put on the read stream. */
  datatype Run = Run(endpoint: Option<string>, enqueued: seq<Inbound>)

  /**
   * `sse_reader` over the stream's wire events: a fatal failure is
   * forwarded and ends the reader; a reported endpoint always has the
   * connection's origin.
   */
  function ReadStream(url: string, channel: Channel, codec: EventCodec, json: JsonRpcCodec, wire: seq<SseEvent>, endpoint: Option<string>): (r: Run)
    ensures |r.enqueued| <= |wire|
    ensures r.endpoint.Some? ==> r.endpoint == endpoint || SameOrigin(url, r.endpoint.value)
    ensures endpoint.Some? ==> r.endpoint == endpoint
    ensures forall i :: 0 <= i < |r.enqueued| - 1 ==> !IsFatal(r.enqueued[i])
    decreases |wire|
  {
    if |wire| == 0 then Run(endpoint, [])
    else
      match Dispatch(url, channel, codec, json, wire[0], endpoint)
      case Stop(failure) => Run(endpoint, [Raised(failure)])
      case Continue(next, out) =>
        var rest := ReadStream(url, channel, codec, json, wire[1..], next);
        Run(rest.endpoint, out + rest.enqueued)
  }

  /** Reading the message events of a stream whose endpoint is known forwards each message in order. */
  lemma {:induction false} ReadsMessages(url: string, channel: Channel, codec: EventCodec, json: JsonRpcCodec, outgoing: seq<Message>, endpoint: string)
    requires ChannelRoundTrip(channel) && EventRoundTrip(codec) && DumpValidates(json)
    ensures var r := ReadStream(url, channel, codec, json, MessageEvents(channel, codec, json, outgoing), Some(endpoint));
      && r.endpoint == Some(endpoint)
      && |r.enqueued| == |outgoing|
      && forall i :: 0 <= i < |outgoing| ==> r.enqueued[i] == Received(outgoing[i])
    decreases |outgoing|
  {
    if |outgoing| > 0 {
      var wire := MessageEvents(channel, codec, json, outgoing);
      assert wire[1..] == MessageEvents(channel, codec, json, outgoing[1..]);
      ReadsMessages(url, channel, codec, json, outgoing[1..], endpoint);
      var m := outgoing[0];
      assert wire == [wire[0]] + wire[1..];
      DispatchSealed(url, channel, codec, json, "message", json.dump(m), Some(endpoint));
      assert OnEvent(url, json, SseEvent("message", json.dump(m)), Some(endpoint)) == Continue(Some(endpoint), [Received(m)]);
      ReadStreamCons(url, channel, codec, json, wire[0], wire[1..], Some(endpoint));
    }
  }

  /**
   * The handshake end to end: reading the stream the server sends for a
   * callback path with one leading `/` yields that path joined onto the
   * connection URL as the endpoint, then every server message in order.
   */
  lemma ReadsServerStream(url: string, channel: Channel, codec: EventCodec, json: JsonRpcCodec, path: string, outgoing: seq<Message>)
    requires ChannelRoundTrip(channel) && EventRoundTrip(codec) && DumpValidates(json)
    requires Split(url, "").scheme in ["http", "https"] && Split(url, "").netloc != ""
    requires StartsWith(path, "/") && !StartsWith(path, "//")
    ensures var r := ReadStream(url, channel, codec, json, OutboundStream(channel, codec, json, Quote(path), outgoing), None);
      && r.endpoint == Some(Join(url, Quote(path)))
      && |r.enqueued| == |outgoing|
      && forall i :: 0 <= i < |outgoing| ==> r.enqueued[i] == Received(outgoing[i])
  {
    var data := Quote(path);
    QuoteKeepsDoubleSlash(path);
    JoinAbsolutePathKeepsOrigin(url, data);
    var endpoint := Join(url, data);
    var later := MessageEvents(channel, codec, json, outgoing);
    DispatchSealed(url, channel, codec, json, "endpoint", data, None);
    assert OnEvent(url, json, SseEvent("endpoint", data), None) == Continue(Some(endpoint), []);
    ReadStreamCons(url, channel, codec, json, SealedEvent(channel, codec, "endpoint", data), later, None);
    ReadsMessages(url, channel, codec, json, outgoing, endpoint);
    var rest := ReadStream(url, channel, codec, json, later, Some(endpoint));
    assert [] + rest.enqueued == rest.enqueued;
  }

  /** An endpoint event pointing at another origin ends the reader with one failure and no endpoint. */
  lemma ForeignEndpointRejected(url: string, channel: Channel, codec: EventCodec, json: JsonRpcCodec, data: string, later: seq<SseEvent>)
    requires ChannelRoundTrip(channel) && EventRoundTrip(codec)
    requires !SameOrigin(url, Join(url, data))
    ensures var r := ReadStream(url, channel, codec, json, [SealedEvent(channel, codec, "endpoint", data)] + later, None);
      && r.endpoint.None?
      && |r.enqueued| == 1 && IsFatal(r.enqueued[0])
  {
    DispatchSealed(url, channel, codec, json, "endpoint", data, None);
    ReadStreamCons(url, channel, codec, json, SealedEvent(channel, codec, "endpoint", data), later, None);
  }

  /**
   * An event that cannot be opened, or whose content is not an event
   * object, ends the reader: its failure is the one value forwarded, the
   * endpoint stays as it was, and nothing after it is read.
   */
  lemma UnreadableEventEndsReader(url: string, channel: Channel, codec: EventCodec, json: JsonRpcCodec, wire: SseEvent, later: seq<SseEvent>, endpoint: Option<string>)
    requires channel.open(wire.data).None? || codec.loads(channel.open(wire.data).value).None?
    ensures var r := ReadStream(url, channel, codec, json, [wire] + later, endpoint);
      && r.endpoint == endpoint
      && |r.enqueued| == 1 && IsFatal(r.enqueued[0])
  {
    ReadStreamCons(url, channel, codec, json, wire, later, endpoint);
  }

  /** A message that fails validation is forwarded as one value and the reader goes on. */
  lemma InvalidMessageForwarded(url: string, channel: Channel, codec: EventCodec, json: JsonRpcCodec, data: string, later: seq<SseEvent>, endpoint: Option<string>)
    requires ChannelRoundTrip(channel) && EventRoundTrip(codec)
    requires json.validate(data).Err?
    ensures var r := ReadStream(url, channel, codec, json, [SealedEvent(channel, codec, "message", data)] + later, endpoint);
      r.enqueued == [Raised(Invalid(json.validate(data).error))] + ReadStream(url, channel, codec, json, later, endpoint).enqueued
  {
    assert ([SealedEvent(channel, codec, "message", data)] + later)[1..] == later;
  }

  /** An event of an unknown kind is skipped. */
  lemma UnknownEventIgnored(url: string, channel: Channel, codec: EventCodec, json: JsonRpcCodec, kind: string, data: string, later: seq<SseEvent>, endpoint: Option<string>)
    requires ChannelRoundTrip(channel) && EventRoundTrip(codec)
    requires kind != "endpoint" && kind != "message"
    ensures ReadStream(url, channel, codec, json, [SealedEvent(channel, codec, kind, data)] + later, endpoint)
         == ReadStream(url, channel, codec, json, later, endpoint)
  {
    assert ([SealedEvent(channel, codec, kind, data)] + later)[1..] == later;
  }

  // ---------------------------------------------------------------------
  // `post_writer`
  // ---------------------------------------------------------------------

  /** An HTTP POST the writer makes. */
  datatype HttpPost = HttpPost(url: string, contentType: string, body: string)

  const TspContentType := "application/tsp"

  /** `raise_for_status` passes: a response arrived with a 2xx status. */
  predicate Succeeded(status: Option<int>) {
    status.Some? && 200 <= status.value < 300
  }

  /**
   * `post_writer`: each outgoing message is sealed and POSTed to the
   * endpoint in order; the first request that fails ends the writer.
   */
  function PostWriter(channel: Channel, json: JsonRpcCodec, endpointUrl: string, outgoing: seq<Message>, status: HttpPost -> Option<int>): (posts: seq<HttpPost>)
    ensures |posts| <= |outgoing|
    ensures |outgoing| > 0 ==> |posts| > 0
    ensures forall i :: 0 <= i < |posts| ==> posts[i] == HttpPost(endpointUrl, TspContentType, channel.seal(json.dump(outgoing[i])))
    ensures forall i :: 0 <= i < |posts| - 1 ==> Succeeded(status(posts[i]))
    decreases |outgoing|
  {
    if |outgoing| == 0 then []
    else
      var post := HttpPost(endpointUrl, TspContentType, channel.seal(json.dump(outgoing[0])));
      if Succeeded(status(post)) then [post] + PostWriter(channel, json, endpointUrl, outgoing[1..], status)
      else [post]
  }

  /**
   * The writer stops early only at a failed request, and a run in which
   * every request succeeded posted every message.
   */
  lemma {:induction false} PostWriterStopsAtFailure(channel: Channel, json: JsonRpcCodec, endpointUrl: string, outgoing: seq<Message>, status: HttpPost -> Option<int>)
    ensures var posts := PostWriter(channel, json, endpointUrl, outgoing, status);
      && (|posts| < |outgoing| ==> !Succeeded(status(posts[|posts| - 1])))
      && ((forall i :: 0 <= i < |posts| ==> Succeeded(status(posts[i]))) ==> |posts| == |outgoing|)
    decreases |outgoing|
  {
    if |outgoing| > 0 {
      var posts := PostWriter(channel, json, endpointUrl, outgoing, status);
      var rest := PostWriter(channel, json, endpointUrl, outgoing[1..], status);
      PostWriterStopsAtFailure(channel, json, endpointUrl, outgoing[1..], status);
      if Succeeded(status(posts[0])) {
        assert posts == [posts[0]] + rest;
        assert forall i :: 0 <= i < |rest| ==> rest[i] == posts[i + 1];
      }
    }
  }

  /**
   * Every POST the writer makes passes the server's Content-Type check,
   * and its body opens and validates to the message it carries.
   */
  lemma PostsAreReadable(channel: Channel, json: JsonRpcCodec, endpointUrl: string, outgoing: seq<Message>, status: HttpPost -> Option<int>)
    requires ChannelRoundTrip(channel) && DumpValidates(json)
    ensures var posts := PostWriter(channel, json, endpointUrl, outgoing, status);
      forall i :: 0 <= i < |posts| ==>
        && ValidateContentType(Some(posts[i].contentType))
        && channel.open(posts[i].body) == Some(json.dump(outgoing[i]))
        && json.validate(json.dump(outgoing[i])) == Ok(outgoing[i])
  {
    ClientContentTypeAccepted();
  }

  /** When every POST succeeds, every message is posted. */
  lemma AllPostedWhenAccepted(channel: Channel, json: JsonRpcCodec, endpointUrl: string, outgoing: seq<Message>, status: HttpPost -> Option<int>)
    requires forall p :: Succeeded(status(p))
    ensures |PostWriter(channel, json, endpointUrl, outgoing, status)| == |outgoing|
  {
  }
}

=== FILE: sse_server.dfy ===
/**
 * The SSE server transport: the session registry from peer DID to the
 * writer of that peer's read stream, the GET handshake that registers a
 * peer and announces the callback path, the sealed outbound event stream,
 * and the decision table of the POST handler.
 */
module SseServer {
  import opened Wrappers
  import opened Text
  import opened Query
  import opened UrlLib
  import opened Base64Url
  import opened Wire
  import opened TransportSecurity

  /** The identity of one connection's read-stream writer. */
  type Handle = nat

  /** `_read_stream_writers`: the writer registered for each peer DID. */
  type Registry = map<string, Handle>

  /** The registry together with the writers already closed by a disconnect. */
  datatype Sessions = Sessions(registry: Registry, closed: set<Handle>)

  const NoSessions := Sessions(map[], {})

  /** The writer a POST from `did` is delivered to, if any. */
  function Lookup(s: Sessions, did: string): Option<Handle> {
    if did in s.registry then Some(s.registry[did]) else None
  }

  // ---------------------------------------------------------------------
  // The GET handshake (`connect_sse`)
  // ---------------------------------------------------------------------

  /** What `connect_sse` reads from the ASGI scope. */
  datatype Scope = Scope(kind: string, rootPath: Option<string>, queryItems: Pairs, headers: Headers)

  /** An established stream: the peer, the channel bound to it, and the data of its `endpoint` event. */
  datatype Established = Established(peer: string, channel: Channel, endpointData: string)

  /** Why the handshake stopped: the error response written first, if any, and the exception raised. */
  datatype Refusal = Refusal(response: Option<Response>, reason: string)

  datatype ConnectOutcome = ConnectOutcome(sessions: Sessions, result: Result<Established, Refusal>)

  /**
   * The path the client is told to POST to: the mount path with every
   * trailing `/` removed, followed by the transport's endpoint.
   */
  function CallbackPath(rootPath: string, endpoint: string): (path: string)
    ensures |path| >= |endpoint| && path[|path| - |endpoint|..] == endpoint
    ensures var prefix := path[..|path| - |endpoint|];
      && StartsWith(rootPath, prefix)
      && (prefix == "" || prefix[|prefix| - 1] != '/')
      && forall i :: |prefix| <= i < |rootPath| ==> rootPath[i] == '/'
  {
    var prefix := RStrip(rootPath, '/');
    assert (prefix + endpoint)[..|prefix|] == prefix;
    prefix + endpoint
  }

  lemma CallbackPathExamples()
    ensures CallbackPath("/api/", "/messages/") == "/api/messages/"
    ensures CallbackPath("", "/messages/") == "/messages/"
    ensures CallbackPath("/api//", "/messages") == "/api/messages"
  {
    assert RStrip("/api/", '/') == "/api";
    assert RStrip("/api//", '/') == "/api";
  }

  /**
   * `connect_sse`: refuse a non-HTTP scope, a request the security check
   * rejects, a request without a `did` query parameter, or a peer no
   * connection can be made to; otherwise register the new writer for the
   * peer and announce the quoted callback path.
   */
  function ConnectSse(
    sessions: Sessions, scope: Scope, security: Settings,
    connections: string -> Option<Channel>, endpoint: string, handle: Handle): (r: ConnectOutcome)
    ensures r.result.Err? ==> r.sessions == sessions
    ensures scope.kind != "http" ==> r.result.Err? && r.result.error.response.None?
    ensures scope.kind == "http" && ValidateRequest(security, scope.headers, false).Some?
            ==> r.result.Err? && r.result.error.response == ValidateRequest(security, scope.headers, false)
    ensures r.result.Ok? <==>
      && scope.kind == "http"
      && ValidateRequest(security, scope.headers, false).None?
      && LastValue(scope.queryItems, "did").Some?
      && connections(LastValue(scope.queryItems, "did").value).Some?
    ensures r.result.Ok? ==>
      var e := r.result.value;
      && e.peer == LastValue(scope.queryItems, "did").value
      && Some(e.channel) == connections(e.peer)
      && e.endpointData == Quote(CallbackPath(scope.rootPath.GetOr(""), endpoint))
      && Lookup(r.sessions, e.peer) == Some(handle)
      && (forall d :: d != e.peer ==> Lookup(r.sessions, d) == Lookup(sessions, d))
      && r.sessions.closed == sessions.closed
  {
    if scope.kind != "http" then
      ConnectOutcome(sessions, Err(Refusal(None, "connect_sse can only handle HTTP requests")))
    else
      match ValidateRequest(security, scope.headers, false)
      case Some(error) => ConnectOutcome(sessions, Err(Refusal(Some(error), "Request validation failed")))
      case None =>
        match LastValue(scope.queryItems, "did")
        case None => ConnectOutcome(sessions, Err(Refusal(None, "did is required")))
        case Some(peer) =>
          match connections(peer)
          case None => ConnectOutcome(sessions, Err(Refusal(None, "no connection to the peer")))
          case Some(channel) =>
            var path := CallbackPath(scope.rootPath.GetOr(""), endpoint);
            ConnectOutcome(Open(sessions, peer, handle), Ok(Established(peer, channel, Quote(path))))
  }

  // ---------------------------------------------------------------------
  // The outbound stream (`sse_send`, `sse_writer`)
  // ---------------------------------------------------------------------

  /** `sse_send(event, data)`: a `message` wire event carrying the sealed JSON `{event, data}`. */
  function SealedEvent(channel: Channel, codec: EventCodec, event: string, data: string): SseEvent {
    SseEvent("message", channel.seal(codec.dumps(SseEvent(event, data))))
  }

  /** `sse_writer`'s loop: one sealed `message` event per outgoing message. */
  function MessageEvents(channel: Channel, codec: EventCodec, json: JsonRpcCodec, outgoing: seq<Message>): (r: seq<SseEvent>)
    ensures |r| == |outgoing|
    ensures forall i :: 0 <= i < |r| ==> r[i] == SealedEvent(channel, codec, "message", json.dump(outgoing[i]))
    decreases |outgoing|
  {
    if |outgoing| == 0 then []
    else [SealedEvent(channel, codec, "message", json.dump(outgoing[0]))] + MessageEvents(channel, codec, json, outgoing[1..])
  }

  /** The events a peer's stream carries: the endpoint, then every outgoing message in order. */
  function OutboundStream(channel: Channel, codec: EventCodec, json: JsonRpcCodec, endpointData: string, outgoing: seq<Message>): (r: seq<SseEvent>)
    ensures |r| == |outgoing| + 1
    ensures forall i :: 0 <= i < |r| ==> r[i].event == "message"
  {
    [SealedEvent(channel, codec, "endpoint", endpointData)] + MessageEvents(channel, codec, json, outgoing)
  }

  /**
   * Opening the stream's wire events with the peer's end of the channel
   * yields exactly one `endpoint` event, first, then one `message` event per
   * outgoing message, in submission order, each validating to that message.
   */
  lemma OutboundStreamOpens(channel: Channel, codec: EventCodec, json: JsonRpcCodec, endpointData: string, outgoing: seq<Message>)
    requires ChannelRoundTrip(channel) && EventRoundTrip(codec) && DumpValidates(json)
    ensures var r := OutboundStream(channel, codec, json, endpointData, outgoing);
      && channel.open(r[0].data) == Some(codec.dumps(SseEvent("endpoint", endpointData)))
      && codec.loads(codec.dumps(SseEvent("endpoint", endpointData))) == Some(SseEvent("endpoint", endpointData))
      && forall i :: 0 <= i < |outgoing| ==>
           && channel.open(r[i + 1].data) == Some(codec.dumps(SseEvent("message", json.dump(outgoing[i]))))
           && codec.loads(codec.dumps(SseEvent("message", json.dump(outgoing[i])))) == Some(SseEvent("message", json.dump(outgoing[i])))
           && json.validate(json.dump(outgoing[i])) == Ok(outgoing[i])
  {
  }

  // ---------------------------------------------------------------------
  // Connection lifecycle and the registry
  // ---------------------------------------------------------------------

  /** Registering a new writer for `did`: an earlier writer for the same DID is replaced. */
  function Open(s: Sessions, did: string, h: Handle): (r: Sessions)
    ensures Lookup(r, did) == Some(h)
    ensures forall other :: other != did ==> Lookup(r, other) == Lookup(s, other)
    ensures r.closed == s.closed
  {
    Sessions(s.registry[did := h], s.closed)
  }

  /**
   * The disconnect path of `connect_sse` as written: both streams of the
   * connection are closed, but its registry entry is left in place.
   */
  function CloseAsWritten(s: Sessions, did: string, h: Handle): (r: Sessions)
    ensures h in r.closed && r.closed == s.closed + {h}
    ensures forall d :: Lookup(r, d) == Lookup(s, d)
  {
    Sessions(s.registry, s.closed + {h})
  }

  /**
   * Disconnect with cleanup: the streams are closed and the entry is
   * removed, but only while it still names this connection's writer (a
   * newer connection for the same DID keeps its entry).
   */
  function Close(s: Sessions, did: string, h: Handle): (r: Sessions)
    ensures h in r.closed && r.closed == s.closed + {h}
    ensures Lookup(s, did) == Some(h) ==> Lookup(r, did) == None
    ensures Lookup(s, did) != Some(h) ==> Lookup(r, did) == Lookup(s, did)
    ensures forall d :: d != did ==> Lookup(r, d) == Lookup(s, d)
  {
    if did in s.registry && s.registry[did] == h then Sessions(s.registry - {did}, s.closed + {h})
    else Sessions(s.registry, s.closed + {h})
  }

  /** A connect or a disconnect of one GET stream. */
  datatype Lifecycle = Connect(did: string, handle: Handle) | Disconnect(did: string, handle: Handle)

  function Apply(s: Sessions, e: Lifecycle): Sessions {
    match e
    case Connect(did, h) => Open(s, did, h)
    case Disconnect(did, h) => Close(s, did, h)
  }

  function ApplyAsWritten(s: Sessions, e: Lifecycle): Sessions {
    match e
    case Connect(did, h) => Open(s, did, h)
    case Disconnect(did, h) => CloseAsWritten(s, did, h)
  }

  /** The sessions after a history of lifecycle events, starting from none. */
  function Replay(events: seq<Lifecycle>): Sessions
    decreases |events|
  {
    if |events| == 0 then NoSessions
    else Apply(Replay(events[..|events| - 1]), events[|events| - 1])
  }

  function ReplayAsWritten(events: seq<Lifecycle>): Sessions
    decreases |events|
  {
    if |events| == 0 then NoSessions
    else ApplyAsWritten(ReplayAsWritten(events[..|events| - 1]), events[|events| - 1])
  }

  /**
   * A history the server can produce: every connection has its own
   * writer, and a disconnect ends a connection made earlier.
   */
  ghost predicate Orderly(events: seq<Lifecycle>) {
    && (forall i, j :: 0 <= i < j < |events| && events[i].Connect? && events[j].Connect? ==> events[i].handle != events[j].handle)
    && (forall j :: 0 <= j < |events| && events[j].Disconnect? ==> Connect(events[j].did, events[j].handle) in events[..j])
  }

  /** The writer of the most recent connection of `did`. */
  function LatestConnect(events: seq<Lifecycle>, did: string): Option<Handle>
    decreases |events|
  {
    if |events| == 0 then None
    else
      var e := events[|events| - 1];
      if e.Connect? && e.did == did then Some(e.handle) else LatestConnect(events[..|events| - 1], did)
  }

  /** Whether the connection with writer `h` has disconnected. */
  ghost predicate Disconnected(events: seq<Lifecycle>, h: Handle) {
    exists j :: 0 <= j < |events| && events[j].Disconnect? && events[j].handle == h
  }

  /** The registry a lookup should see: the most recent connection's writer while it is still open. */
  ghost function Expected(events: seq<Lifecycle>, did: string): Option<Handle> {
    match LatestConnect(events, did)
    case None => None
    case Some(h) => if Disconnected(events, h) then None else Some(h)
  }

  lemma {:induction false} LatestConnectOccurs(events: seq<Lifecycle>, did: string)
    requires LatestConnect(events, did).Some?
    ensures Connect(did, LatestConnect(events, did).value) in events
    decreases |events|
  {
    var n := |events|;
    var e := events[n - 1];
    if !(e.Connect? && e.did == did) {
      LatestConnectOccurs(events[..n - 1], did);
      var i :| 0 <= i < n - 1 && events[..n - 1][i] == Connect(did, LatestConnect(events, did).value);
      assert events[i] == events[..n - 1][i];
    }
  }

  lemma OrderlyPrefix(events: seq<Lifecycle>)
    requires |events| > 0 && Orderly(events)
    ensures Orderly(events[..|events| - 1])
  {
    var pre := events[..|events| - 1];
    forall j | 0 <= j < |pre| && pre[j].Disconnect?
      ensures Connect(pre[j].did, pre[j].handle) in pre[..j]
    {
      assert pre[..j] == events[..j];
      assert pre[j] == events[j];
    }
  }

  /** Two connections with the same writer are the same connection's DID. */
  lemma SameWriterSameDid(events: seq<Lifecycle>, a: string, b: string, h: Handle)
    requires Orderly(events)
    requires Connect(a, h) in events && Connect(b, h) in events
    ensures a == b
  {
    var i :| 0 <= i < |events| && events[i] == Connect(a, h);
    var j :| 0 <= j < |events| && events[j] == Connect(b, h);
    assert i == j;
  }

  /** A connection's writer has never been disconnected before its own connect. */
  lemma FreshWriterOpen(events: seq<Lifecycle>, h: Handle)
    requires |events| > 0 && Orderly(events)
    requires events[|events| - 1].Connect? && events[|events| - 1].handle == h
    ensures !Disconnected(events[..|events| - 1], h)
  {
    var n := |events|;
    var pre := events[..n - 1];
    forall j | 0 <= j < |pre| && pre[j].Disconnect?
      ensures pre[j].handle != h
    {
      assert events[j] == pre[j];
      assert Connect(events[j].did, events[j].handle) in events[..j];
      var i :| 0 <= i < j && events[..j][i] == Connect(events[j].did, events[j].handle);
      assert events[i] == events[..j][i];
      assert events[i].handle != events[n - 1].handle;
    }
  }

  lemma DisconnectedExtend(events: seq<Lifecycle>, h: Handle)
    requires |events| > 0
    ensures Disconnected(events, h) <==>
      Disconnected(events[..|events| - 1], h) || (events[|events| - 1].Disconnect? && events[|events| - 1].handle == h)
  {
    var pre := events[..|events| - 1];
    if Disconnected(pre, h) {
      var j :| 0 <= j < |pre| && pre[j].Disconnect? && pre[j].handle == h;
      assert events[j] == pre[j];
    }
    if Disconnected(events, h) {
      var j :| 0 <= j < |events| && events[j].Disconnect? && events[j].handle == h;
      if j < |pre| {
        assert pre[j] == events[j];
      }
    }
  }

  /** The step of the replay proof for a connect. */
  lemma ConnectStep(events: seq<Lifecycle>, did: string)
    requires |events| > 0 && Orderly(events) && events[|events| - 1].Connect?
    requires Lookup(Replay(events[..|events| - 1]), did) == Expected(events[..|events| - 1], did)
    ensures Lookup(Replay(events), did) == Expected(events, did)
  {
    var n := |events|;
    var pre := events[..n - 1];
    var c, h := events[n - 1].did, events[n - 1].handle;
    assert Replay(events) == Open(Replay(pre), c, h);
    if did == c {
      FreshWriterOpen(events, h);
      DisconnectedExtend(events, h);
    } else {
      assert LatestConnect(events, did) == LatestConnect(pre, did);
      if LatestConnect(pre, did).Some? {
        DisconnectedExtend(events, LatestConnect(pre, did).value);
      }
    }
  }

  /** The step of the replay proof for a disconnect. */
  lemma DisconnectStep(events: seq<Lifecycle>, pre: seq<Lifecycle>, did: string)
    requires |events| > 0 && pre == events[..|events| - 1] && Orderly(events) && events[|events| - 1].Disconnect?
    requires forall d :: Lookup(Replay(pre), d) == Expected(pre, d)
    ensures Lookup(Replay(events), did) == Expected(events, did)
  {
    var n := |events|;
    var c, h := events[n - 1].did, events[n - 1].handle;
    assert Replay(events) == Close(Replay(pre), c, h);
    assert LatestConnect(events, did) == LatestConnect(pre, did);
    DisconnectedExtend(events, h);
    assert Lookup(Replay(pre), did) == Expected(pre, did);
    assert Lookup(Replay(pre), c) == Expected(pre, c);
    if LatestConnect(pre, did).Some? {
      var x := LatestConnect(pre, did).value;
      DisconnectedExtend(events, x);
      if x == h {
        LatestConnectOccurs(pre, did);
        assert Connect(c, h) in pre;
        assert Connect(did, h) in events && Connect(c, h) in events by {
          assert forall y :: y in pre ==> y in events;
        }
        SameWriterSameDid(events, did, c, h);
        assert did == c;
      }
    }
  }

  /**
   * Whatever history of connects and disconnects the server goes through,
   * a lookup finds the writer of the peer's most recent connection while
   * that connection is open, and nothing once it has closed.
   */
  lemma {:induction false} ReplayTracksLatest(events: seq<Lifecycle>)
    requires Orderly(events)
    ensures forall did :: Lookup(Replay(events), did) == Expected(events, did)
    decreases |events|
  {
    var n := |events|;
    if n > 0 {
      OrderlyPrefix(events);
      ReplayTracksLatest(events[..n - 1]);
      forall did ensures Lookup(Replay(events), did) == Expected(events, did) {
        if events[n - 1].Connect? {
          ConnectStep(events, did);
        } else {
          DisconnectStep(events, events[..n - 1], did);
        }
      }
    }
  }

  /** After a peer's connection closes, with cleanup, its DID has no session until it connects again. */
  lemma ClosedSessionForgotten(events: seq<Lifecycle>, did: string, h: Handle)
    requires Orderly(events + [Disconnect(did, h)])
    requires LatestConnect(events, did) == Some(h)
    ensures Lookup(Replay(events + [Disconnect(did, h)]), did) == None
  {
    var all := events + [Disconnect(did, h)];
    ReplayTracksLatest(all);
    assert all[..|all| - 1] == events;
    assert all[|all| - 1] == Disconnect(did, h);
    assert Disconnected(all, h);
  }

  /**
   * As written, the entry of a disconnected peer survives: after a connect
   * and its disconnect, the registry still routes the peer to the closed writer.
   */
  lemma StaleEntryAsWritten()
    ensures var events := [Connect("P", 0), Disconnect("P", 0)];
      && Orderly(events)
      && Lookup(ReplayAsWritten(events), "P") == Some(0)
      && 0 in ReplayAsWritten(events).closed
      && Lookup(Replay(events), "P") == None
  {
    var events := [Connect("P", 0), Disconnect("P", 0)];
    assert events[..1] == [Connect("P", 0)];
    assert events[..0] == [];
    assert Connect("P", 0) in events[..1];
  }

  // ---------------------------------------------------------------------
  // The POST handler (`handle_post_message`)
  // ---------------------------------------------------------------------

  /**
   * What a POST does: the response written and what, if anything, is sent
   * on which writer; or the exception it raises before any response.
   */
  datatype PostOutcome =
    | Answered(response: Response, delivered: Option<(Handle, Inbound)>)
    | Crashed(reason: string)

  const IncorrectReceiver := Response(400, "Incorrect receiver")
  const SessionNotFound := Response(404, "Could not find session")
  const CouldNotParse := Response(400, "Could not parse message")
  const Accepted := Response(202, "Accepted")

  /** The (sender, receiver) a body's envelope names: base64url-decode it, then ask the wallet. */
  function Envelope(store: SecureStore, body: string): Option<(string, string)> {
    match Decode(body)
    case None => None
    case Some(bytes) => store.senderReceiver(bytes)
  }

  /**
   * `handle_post_message`: the security check, then the envelope, then
   * the receiver check, then opening through the sender's connection, then
   * the registry, then validation of the payload.
   */
  function HandlePost(
    security: Settings, headers: Headers, body: string, serverDid: string,
    store: SecureStore, connections: string -> Option<Channel>, json: JsonRpcCodec,
    sessions: Sessions): (r: PostOutcome)
    ensures ValidateRequest(security, headers, true).Some? ==> r == Answered(ValidateRequest(security, headers, true).value, None)
    ensures ValidateRequest(security, headers, true).None? && Envelope(store, body).Some? && Envelope(store, body).value.1 != serverDid
            ==> r == Answered(IncorrectReceiver, None)
    ensures r.Answered? && r.response == SessionNotFound ==>
      && Envelope(store, body).Some? && Lookup(sessions, Envelope(store, body).value.0).None?
    ensures r.Answered? && r.delivered.Some? ==>
      && ValidateRequest(security, headers, true).None?
      && Envelope(store, body).Some? && Envelope(store, body).value.1 == serverDid
      && Lookup(sessions, Envelope(store, body).value.0) == Some(r.delivered.value.0)
    ensures r.Answered? ==> (r.response == Accepted <==> r.delivered.Some? && r.delivered.value.1.Received?)
    ensures r.Answered? ==> (r.response == CouldNotParse <==> r.delivered.Some? && r.delivered.value.1.Raised?)
    ensures
      && ValidateRequest(security, headers, true).None?
      && Envelope(store, body).Some? && Envelope(store, body).value.1 == serverDid
      && Lookup(sessions, Envelope(store, body).value.0).Some?
      && connections(Envelope(store, body).value.0).Some?
      && connections(Envelope(store, body).value.0).value.open(body).Some?
      ==>
      var sender := Envelope(store, body).value.0;
      var outcome := json.validate(connections(sender).value.open(body).value);
      && (outcome.Ok? ==> r == Answered(Accepted, Some((Lookup(sessions, sender).value, Received(outcome.value)))))
      && (outcome.Err? ==> r == Answered(CouldNotParse, Some((Lookup(sessions, sender).value, Raised(Invalid(outcome.error))))))
    ensures
      && ValidateRequest(security, headers, true).None?
      && Envelope(store, body).Some? && Envelope(store, body).value.1 == serverDid
      && Lookup(sessions, Envelope(store, body).value.0).None?
      && connections(Envelope(store, body).value.0).Some?
      && connections(Envelope(store, body).value.0).value.open(body).Some?
      ==> r == Answered(SessionNotFound, None)
  {
    match ValidateRequest(security, headers, true)
    case Some(error) => Answered(error, None)
    case None =>
      match Decode(body)
      case None => Crashed("binascii.Error")
      case Some(bytes) =>
        match store.senderReceiver(bytes)
        case None => Crashed("the envelope could not be read")
        case Some((sender, receiver)) =>
          if receiver != serverDid then Answered(IncorrectReceiver, None)
          else
            match connections(sender)
            case None => Crashed("no connection to the sender")
            case Some(channel) =>
              match channel.open(body)
              case None => Crashed("the message could not be opened")
              case Some(jsonText) =>
                match Lookup(sessions, sender)
                case None => Answered(SessionNotFound, None)
                case Some(writer) =>
                  match json.validate(jsonText)
                  case Err(error) => Answered(CouldNotParse, Some((writer, Raised(Invalid(error)))))
                  case Ok(message) => Answered(Accepted, Some((writer, Received(message))))
  }

  /**
   * A well-addressed POST whose payload opens and validates reaches the
   * sender's registered writer as exactly that message, answered 202; a
   * sender with no session gets 404 and nothing is delivered.
   */
  lemma PostRoutesToSender(
    security: Settings, headers: Headers, body: string, serverDid: string,
    store: SecureStore, connections: string -> Option<Channel>, json: JsonRpcCodec,
    sessions: Sessions, sender: string, channel: Channel, jsonText: string, m: Message)
    requires ValidateRequest(security, headers, true).None?
    requires Envelope(store, body) == Some((sender, serverDid))
    requires connections(sender) == Some(channel) && channel.open(body) == Some(jsonText)
    requires json.validate(jsonText) == Ok(m)
    ensures Lookup(sessions, sender).Some? ==>
      HandlePost(security, headers, body, serverDid, store, connections, json, sessions)
        == Answered(Accepted, Some((Lookup(sessions, sender).value, Received(m))))
    ensures Lookup(sessions, sender).None? ==>
      HandlePost(security, headers, body, serverDid, store, connections, json, sessions) == Answered(SessionNotFound, None)
  {
  }

  /**
   * A well-addressed POST whose payload opens but fails validation is
   * answered 400 "Could not parse message", and the validation error is
   * still sent to the sender's writer; without a session it gets 404.
   */
  lemma PostForwardsParseError(
    security: Settings, headers: Headers, body: string, serverDid: string,
    store: SecureStore, connections: string -> Option<Channel>, json: JsonRpcCodec,
    sessions: Sessions, sender: string, channel: Channel, jsonText: string)
    requires ValidateRequest(security, headers, true).None?
    requires Envelope(store, body) == Some((sender, serverDid))
    requires connections(sender) == Some(channel) && channel.open(body) == Some(jsonText)
    requires json.validate(jsonText).Err?
    ensures Lookup(sessions, sender).Some? ==>
      HandlePost(security, headers, body, serverDid, store, connections, json, sessions)
        == Answered(CouldNotParse, Some((Lookup(sessions, sender).value, Raised(Invalid(json.validate(jsonText).error)))))
    ensures Lookup(sessions, sender).None? ==>
      HandlePost(security, headers, body, serverDid, store, connections, json, sessions) == Answered(SessionNotFound, None)
  {
  }

  /**
   * The consequence of the stale entry: a POST from a peer whose stream has
   * closed is answered 202 and handed to the closed writer, where the
   * cleanup version answers 404.
   */
  lemma PostAfterDisconnect(
    security: Settings, headers: Headers, body: string, serverDid: string,
    store: SecureStore, connections: string -> Option<Channel>, json: JsonRpcCodec,
    channel: Channel, m: Message)
    requires DumpValidates(json)
    requires ValidateRequest(security, headers, true).None?
    requires Envelope(store, body) == Some(("P", serverDid))
    requires connections("P") == Some(channel) && channel.open(body) == Some(json.dump(m))
    ensures var events := [Connect("P", 0), Disconnect("P", 0)];
      && HandlePost(security, headers, body, serverDid, store, connections, json, ReplayAsWritten(events))
           == Answered(Accepted, Some((0, Received(m))))
      && 0 in ReplayAsWritten(events).closed
      && HandlePost(security, headers, body, serverDid, store, connections, json, Replay(events))
           == Answered(SessionNotFound, None)
  {
    StaleEntryAsWritten();
    var events := [Connect("P", 0), Disconnect("P", 0)];
    assert json.validate(json.dump(m)) == Ok(m);
    PostRoutesToSender(security, headers, body, serverDid, store, connections, json, ReplayAsWritten(events), "P", channel, json.dump(m), m);
    PostRoutesToSender(security, headers, body, serverDid, store, connections, json, Replay(events), "P", channel, json.dump(m), m);
  }
}

=== FILE: text.dfy ===
/**
 * The handful of Python `str` operations the transport layer relies on,
 * over Dafny strings (`seq<char>`).
 */
module Text {

  /** Python's `s.startswith(prefix)`. */
  predicate StartsWith(s: string, prefix: string) {
    |prefix| <= |s| && s[..|prefix|] == prefix
  }

  /** Python's `s.endswith(suffix)`. */
  predicate EndsWith(s: string, suffix: string) {
    |suffix| <= |s| && s[|s| - |suffix|..] == suffix
  }

  /** Python's `sub in s`: some position of `s` starts an occurrence of `sub`. */
  predicate Contains(s: string, sub: string)
    decreases |s|
  {
    StartsWith(s, sub) || (|s| > 0 && Contains(s[1..], sub))
  }

  /** An occurrence at any index makes `Contains` hold. */
  lemma {:induction false} ContainsAt(s: string, sub: string, i: nat)
    requires i + |sub| <= |s| && s[i..i + |sub|] == sub
    ensures Contains(s, sub)
    decreases i
  {
    if i == 0 {
      assert s[..|sub|] == sub;
    } else {
      assert s[1..][i - 1..i - 1 + |sub|] == s[i..i + |sub|];
      ContainsAt(s[1..], sub, i - 1);
    }
  }

  /** A concatenation starts with its left part and ends with its right part. */
  lemma ConcatEnds(a: string, b: string)
    ensures StartsWith(a + b, a) && EndsWith(a + b, b)
  {
    assert (a + b)[..|a|] == a;
    assert (a + b)[|a + b| - |b|..] == b;
  }

  /** A suffix of the right part is a suffix of the concatenation. */
  lemma EndsWithExtend(a: string, s: string, suffix: string)
    requires EndsWith(s, suffix)
    ensures EndsWith(a + s, suffix)
  {
    assert (a + s)[|a + s| - |suffix|..] == s[|s| - |suffix|..];
  }

  /** No character of `s` is `c`. */
  predicate Lacks(s: string, c: char) {
    forall i :: 0 <= i < |s| ==> s[i] != c
  }

  /** Two strings without `c` concatenate to one without `c`. */
  lemma LacksConcat(x: string, y: string, c: char)
    requires Lacks(x, c) && Lacks(y, c)
    ensures Lacks(x + y, c)
  {
    forall i | 0 <= i < |x + y| ensures (x + y)[i] != c {
      if i >= |x| {
        assert (x + y)[i] == y[i - |x|];
      }
    }
  }

  /** Python's `str.lower()` on one character; only ASCII letters are folded. */
  function LowerChar(c: char): char {
    if 'A' <= c <= 'Z' then (c as int + 32) as char else c
  }

  /** Python's `str.lower()`, character by character. */
  function Lower(s: string): (r: string)
    ensures |r| == |s|
    ensures forall i :: 0 <= i < |s| ==> r[i] == LowerChar(s[i])
  {
    seq(|s|, i requires 0 <= i < |s| => LowerChar(s[i]))
  }

  /** Lower-casing commutes with taking a prefix. */
  lemma LowerPrefix(s: string, n: nat)
    requires n <= |s|
    ensures Lower(s)[..n] == Lower(s[..n])
  {
  }

  /** `s` begins with `prefix` once its ASCII letters are folded to lower case. */
  predicate FoldedPrefix(s: string, prefix: string) {
    |prefix| <= |s| && forall i :: 0 <= i < |prefix| ==> LowerChar(s[i]) == prefix[i]
  }

  /** `s.lower().startswith(prefix)` is a character-wise test on `s` itself. */
  lemma LowerStartsWith(s: string, prefix: string)
    ensures StartsWith(Lower(s), prefix) <==> FoldedPrefix(s, prefix)
  {
    if FoldedPrefix(s, prefix) {
      assert Lower(s)[..|prefix|] == prefix;
    }
    if StartsWith(Lower(s), prefix) {
      forall i | 0 <= i < |prefix| ensures LowerChar(s[i]) == prefix[i] {
        assert Lower(s)[..|prefix|][i] == prefix[i];
      }
    }
  }

  /** Python's `s.rstrip(c)` for a single character `c`. */
  function RStrip(s: string, c: char): (r: string)
    ensures |r| <= |s| && r == s[..|r|]
    ensures |r| == 0 || r[|r| - 1] != c
    ensures forall i :: |r| <= i < |s| ==> s[i] == c
    decreases |s|
  {
    if |s| > 0 && s[|s| - 1] == c then RStrip(s[..|s| - 1], c) else s
  }

  /** Python's `s[:n]`. */
  function Take(s: string, n: nat): (r: string)
    ensures |r| <= n && StartsWith(s, r)
    ensures |s| <= n ==> r == s
    ensures n <= |s| ==> |r| == n
  {
    if |s| <= n then s else s[..n]
  }

  /**
   * Python's `s.replace(pat, rep)`: every non-overlapping occurrence of
   * `pat`, scanning left to right, is replaced by `rep`.
   */
  function Replace(s: string, pat: string, rep: string): string
    requires |pat| > 0
    decreases |s|
  {
    if |s| < |pat| then s
    else if s[..|pat|] == pat then rep + Replace(s[|pat|..], pat, rep)
    else [s[0]] + Replace(s[1..], pat, rep)
  }

  /** A string without an occurrence of the pattern is left as it is. */
  lemma {:induction false} ReplaceAbsent(s: string, pat: string, rep: string)
    requires |pat| > 0 && !Contains(s, pat)
    ensures Replace(s, pat, rep) == s
    decreases |s|
  {
    if |s| >= |pat| {
      assert !StartsWith(s, pat);
      ReplaceAbsent(s[1..], pat, rep);
      assert [s[0]] + s[1..] == s;
    }
  }

  /** A leading occurrence is replaced and the scan goes on after it. */
  lemma ReplaceHead(pat: string, rest: string, rep: string)
    requires |pat| > 0
    ensures Replace(pat + rest, pat, rep) == rep + Replace(rest, pat, rep)
  {
    assert (pat + rest)[..|pat|] == pat;
    assert (pat + rest)[|pat|..] == rest;
  }

  /** A character that does not start an occurrence is copied and the scan moves one on. */
  lemma ReplaceSkip(c: char, x: string, pat: string, rep: string)
    requires |pat| > 0 && !StartsWith([c] + x, pat)
    ensures Replace([c] + x, pat, rep) == [c] + Replace(x, pat, rep)
  {
    assert ([c] + x)[1..] == x;
  }

  /** No occurrence of `pat` starts inside `p` when `x` follows it. */
  predicate NoMatchIn(p: string, x: string, pat: string) {
    forall i :: 0 <= i < |p| ==> !StartsWith(p[i..] + x, pat)
  }

  /** Dropping the first character of the prefix keeps the property. */
  lemma NoMatchInTail(p: string, x: string, pat: string)
    requires |p| > 0 && NoMatchIn(p, x, pat)
    ensures NoMatchIn(p[1..], x, pat)
    ensures !StartsWith([p[0]] + (p[1..] + x), pat)
  {
    forall i | 0 <= i < |p[1..]| ensures !StartsWith(p[1..][i..] + x, pat) {
      assert p[1..][i..] == p[i + 1..];
    }
    assert p[0..] + x == [p[0]] + (p[1..] + x);
  }

  /** A prefix inside which no occurrence starts is copied unchanged. */
  lemma {:induction false} ReplaceKeepsPrefix(p: string, x: string, pat: string, rep: string)
    requires |pat| > 0 && NoMatchIn(p, x, pat)
    ensures Replace(p + x, pat, rep) == p + Replace(x, pat, rep)
    decreases |p|
  {
    if |p| > 0 {
      var y := p[1..] + x;
      assert p + x == [p[0]] + y;
      NoMatchInTail(p, x, pat);
      ReplaceSkip(p[0], y, pat, rep);
      ReplaceKeepsPrefix(p[1..], x, pat, rep);
      var r := Replace(x, pat, rep);
      assert [p[0]] + (p[1..] + r) == p + r;
    } else {
      assert p + x == x;
    }
  }
}

=== FILE: tmcp.dfy ===
/**
 * Identity helpers shared by the transports: creating or reusing the local
 * identity (DID) behind an alias, adding routing parameters to a URL, and
 * resolving a server DID to the URL a client connects to.
 */
module Tmcp {
  import opened Wrappers
  import opened Text
  import opened Query
  import opened UrlLib

  /** A `str.format` template with one placeholder: `before{x}after`. */
  datatype Template = Template(before: string, after: string) {
    function Fill(x: string): string {
      before + x + after
    }
  }

  /** `TmcpSettings`. */
  datatype TmcpSettings = TmcpSettings(didPublishUrl: string, didPublishHistoryUrl: Template, didFormat: Template, transport: string)

  /** The defaults of `TmcpSettings`. */
  const DefaultSettings := TmcpSettings(
    "https://did.teaspoon.world/add-vid",
    Template("https://did.teaspoon.world/add-history/", ""),
    Template("did.teaspoon.world/endpoint/", ""),
    "tmcpclient://")

  /** The longest name the DID template is given. */
  const MaxNameLength := 63

  /** A private identity: its identifier and its JSON document. */
  datatype OwnedVid = OwnedVid(identifier: string, document: string)

  /** The identity store of `tsp.SecureStore`: alias lookup and the private identities it holds. */
  datatype Wallet = Wallet(aliases: map<string, string>, vids: map<string, OwnedVid>)

  /**
   * The calls into the identity directory and the wallet's crypto: `verify_vid`
   * (the DID's endpoint URL, or the message of the exception it raised),
   * `OwnedVid.new_did_webvh` (identity and history), and whether an HTTP
   * POST of a body to a URL passes `raise_for_status`.
   */
  datatype Directory = Directory(
    verify: string -> Result<string, string>,
    newDidWebvh: (string, string) -> (OwnedVid, string),
    accepts: (string, string) -> bool)

  /** An HTTP POST of `body` to `url`. */
  datatype Post = Post(url: string, body: string)

  /** What `init_identity` returns or raises, the wallet afterwards, and the POSTs it made in order. */
  datatype InitOutcome = InitOutcome(result: Result<string, string>, wallet: Wallet, posts: seq<Post>)

  /** A verification error that means the DID no longer resolves. */
  predicate NotFoundError(message: string) {
    Contains(message, "ResolveVid(\"Not found\")") || Contains(message, "kind: Status(404)")
  }

  /** The name a fresh identity is created under: `f"{alias}-{uuid}"[:63]`. */
  function FreshName(alias: string, uuid: string): (name: string)
    ensures |name| <= MaxNameLength
    ensures StartsWith(alias + "-" + uuid, name)
    ensures |alias + "-" + uuid| <= MaxNameLength ==> name == alias + "-" + uuid
    ensures |alias + "-" + uuid| > MaxNameLength ==> |name| == MaxNameLength
  {
    Take(alias + "-" + uuid, MaxNameLength)
  }

  /**
   * Create, publish and store a fresh identity: the document POST and
   * then the history POST must both succeed before the wallet stores it.
   */
  function CreateIdentity(w: Wallet, dir: Directory, alias: string, settings: TmcpSettings, uuid: string): (r: InitOutcome)
    ensures |r.posts| in {1, 2}
    ensures r.posts[0].url == settings.didPublishUrl
    ensures var (identity, history) := dir.newDidWebvh(settings.didFormat.Fill(FreshName(alias, uuid)), settings.transport);
      && r.posts[0].body == identity.document
      && (|r.posts| == 2 ==> r.posts[1].body == history)
      && (r.result.Ok? ==> r.result.value == identity.identifier && r.wallet.vids == w.vids[identity.identifier := identity])
    ensures r.result.Ok? <==> |r.posts| == 2 && dir.accepts(r.posts[0].url, r.posts[0].body) && dir.accepts(r.posts[1].url, r.posts[1].body)
    ensures r.result.Ok? ==> r.posts[1].url == settings.didPublishHistoryUrl.Fill(r.result.value)
    ensures r.result.Ok? ==> r.wallet.aliases == w.aliases[alias := r.result.value] && r.result.value in r.wallet.vids
    ensures r.result.Err? ==> r.wallet == w
  {
    var (identity, history) := dir.newDidWebvh(settings.didFormat.Fill(FreshName(alias, uuid)), settings.transport);
    var did := identity.identifier;
    var document := Post(settings.didPublishUrl, identity.document);
    var historyPost := Post(settings.didPublishHistoryUrl.Fill(did), history);
    if !dir.accepts(document.url, document.body) then
      InitOutcome(Err("publish of the DID document failed"), w, [document])
    else if !dir.accepts(historyPost.url, historyPost.body) then
      InitOutcome(Err("publish of the DID history failed"), w, [document, historyPost])
    else
      InitOutcome(Ok(did), Wallet(w.aliases[alias := did], w.vids[did := identity]), [document, historyPost])
  }

  /**
   * `init_identity(wallet, alias)`: a stored DID that still verifies is
   * reused; a missing alias, or a stored DID the directory reports as not
   * found, leads to a fresh identity; any other verification error is raised.
   */
  function InitIdentity(w: Wallet, dir: Directory, alias: string, settings: TmcpSettings, uuid: string): (r: InitOutcome)
    ensures alias in w.aliases && dir.verify(w.aliases[alias]).Ok? ==> r == InitOutcome(Ok(w.aliases[alias]), w, [])
    ensures alias in w.aliases && dir.verify(w.aliases[alias]).Err? && !NotFoundError(dir.verify(w.aliases[alias]).error)
            ==> r == InitOutcome(Err(dir.verify(w.aliases[alias]).error), w, [])
    ensures alias !in w.aliases || (dir.verify(w.aliases[alias]).Err? && NotFoundError(dir.verify(w.aliases[alias]).error))
            ==> r == CreateIdentity(w, dir, alias, settings, uuid)
    ensures r.wallet != w ==> r.result.Ok? && |r.posts| == 2
    ensures r.result.Err? ==> r.wallet == w
  {
    if alias in w.aliases then
      var did := w.aliases[alias];
      match dir.verify(did)
      case Ok(_) => InitOutcome(Ok(did), w, [])
      case Err(message) =>
        if NotFoundError(message) then CreateIdentity(w, dir, alias, settings, uuid)
        else InitOutcome(Err(message), w, [])
    else CreateIdentity(w, dir, alias, settings, uuid)
  }

  /** An identity that no longer resolves is replaced: two POSTs, and on success the alias names the new DID. */
  lemma NotFoundRecreates(w: Wallet, dir: Directory, alias: string, settings: TmcpSettings, uuid: string)
    requires alias in w.aliases && dir.verify(w.aliases[alias]).Err?
    requires NotFoundError(dir.verify(w.aliases[alias]).error)
    ensures var r := InitIdentity(w, dir, alias, settings, uuid);
      && r.posts[0].url == settings.didPublishUrl
      && (r.result.Ok? ==> |r.posts| == 2 && r.wallet.aliases[alias] == r.result.value)
  {
  }

  /** A 404 from the directory counts as "not found". */
  lemma Status404IsNotFound(prefix: string, suffix: string)
    ensures NotFoundError(prefix + "kind: Status(404)" + suffix)
  {
    var m := prefix + "kind: Status(404)" + suffix;
    assert m[|prefix|..|prefix| + |"kind: Status(404)"|] == "kind: Status(404)";
    ContainsAt(m, "kind: Status(404)", |prefix|);
  }

  /**
   * `add_request_params(url, params)`: merge `params` into the query of
   * `url`. Whatever the query codec does, a URL with a network location
   * keeps its scheme and network location.
   */
  function AddRequestParams(codec: QueryCodec, url: string, params: Pairs): (r: string)
    ensures Split(url, "").netloc != "" ==> Split(r, "").scheme == Split(url, "").scheme
    ensures Split(url, "").netloc != "" ==> Split(r, "").netloc == Split(url, "").netloc
  {
    var p := Split(url, "");
    var p1 := p.(query := codec.encode(Update(DictOf(codec.parse(p.query)), params)));
    if p.netloc != "" then UnsplitKeepsOrigin(p1); Unsplit(p1) else Unsplit(p1)
  }

  /**
   * After `add_request_params` every parameter has its given value (one
   * given as the empty string reads back as absent, since `parse_qsl`
   * drops blank values), every other key keeps the last value the original
   * query gave it, each key occurs once, and scheme, network location, path
   * and fragment are kept.
   */
  lemma AddRequestParamsMerges(codec: QueryCodec, url: string, params: Pairs)
    requires QueryRoundTrip(codec) && UniqueKeys(params) && Split(url, "").netloc != ""
    ensures
      var before := Split(url, "");
      var after := Split(AddRequestParams(codec, url, params), "");
      var q := codec.parse(after.query);
      && after.scheme == before.scheme && after.netloc == before.netloc
      && after.path == before.path && after.fragment == before.fragment
      && UniqueKeys(q)
      && (forall k :: Get(params, k).Some? ==> Get(q, k) == DropBlank(Get(params, k)))
      && (forall k :: Get(params, k).None? ==> Get(q, k) == LastValue(codec.parse(before.query), k))
  {
    var p := Split(url, "");
    var merged := Update(DictOf(codec.parse(p.query)), params);
    DictOfCollapses(codec.parse(p.query));
    FilledGet(merged);
    var p1 := p.(query := codec.encode(merged));
    SplitUnsplit(p1);
    assert codec.parse(p1.query) == Filled(merged);
    forall k | Get(params, k).Some? ensures Get(merged, k) == Get(params, k) {
      LastValueOfUnique(params, k);
    }
    forall k | Get(params, k).None? ensures Get(Filled(merged), k) == LastValue(codec.parse(p.query), k) {
      LastValueOfUnique(params, k);
      LastValueNoBlank(codec.parse(p.query), k);
    }
  }

  /**
   * Applying `add_request_params` a second time with the same parameters
   * changes nothing a reader of the URL sees: the same scheme, network
   * location, path and fragment, and every key reads the same value.
   */
  lemma AddRequestParamsIdempotent(codec: QueryCodec, url: string, params: Pairs)
    requires QueryRoundTrip(codec) && UniqueKeys(params) && Split(url, "").netloc != ""
    ensures
      var once := Split(AddRequestParams(codec, url, params), "");
      var twice := Split(AddRequestParams(codec, AddRequestParams(codec, url, params), params), "");
      && twice.scheme == once.scheme && twice.netloc == once.netloc
      && twice.path == once.path && twice.fragment == once.fragment
      && forall k :: Get(codec.parse(twice.query), k) == Get(codec.parse(once.query), k)
  {
    var url1 := AddRequestParams(codec, url, params);
    var url2 := AddRequestParams(codec, url1, params);
    AddRequestParamsMerges(codec, url, params);
    AddRequestParamsMerges(codec, url1, params);
    var q1 := codec.parse(Split(url1, "").query);
    var q2 := codec.parse(Split(url2, "").query);
    MergeAgainSame(params, q1, q2);
  }

  /**
   * A dict `q1` that already reads the parameters, merged with them again
   * into `q2`, reads the same as `q1` at every key.
   */
  lemma MergeAgainSame(params: Pairs, q1: Pairs, q2: Pairs)
    requires UniqueKeys(q1)
    requires forall k :: Get(params, k).Some? ==> Get(q1, k) == DropBlank(Get(params, k))
    requires forall k :: Get(params, k).Some? ==> Get(q2, k) == DropBlank(Get(params, k))
    requires forall k :: Get(params, k).None? ==> Get(q2, k) == LastValue(q1, k)
    ensures forall k :: Get(q2, k) == Get(q1, k)
  {
    forall k ensures Get(q2, k) == Get(q1, k) {
      if Get(params, k).None? {
        LastValueOfUnique(q1, k);
      }
    }
  }

  /**
   * When no parameter is blank, applying `add_request_params` twice gives
   * the very same URL as applying it once.
   */
  lemma AddRequestParamsIdempotentUrl(codec: QueryCodec, url: string, params: Pairs)
    requires QueryRoundTrip(codec) && UniqueKeys(params) && NoBlank(params) && Split(url, "").netloc != ""
    ensures AddRequestParams(codec, AddRequestParams(codec, url, params), params) == AddRequestParams(codec, url, params)
  {
    var p := Split(url, "");
    var merged := Update(DictOf(codec.parse(p.query)), params);
    DictOfCollapses(codec.parse(p.query));
    UpdateNoBlank([], codec.parse(p.query));
    UpdateNoBlank(DictOf(codec.parse(p.query)), params);
    FilledOfNoBlank(merged);
    var p1 := p.(query := codec.encode(merged));
    SplitUnsplit(p1);
    assert codec.parse(p1.query) == merged;
    DictOfDict(merged);
    UpdateIdempotent(DictOf(codec.parse(p.query)), params);
  }

  /** `resolve_server(wallet, server_did, did)`. */
  function ResolveServer(dir: Directory, codec: QueryCodec, serverDid: string, did: Option<string>): (r: Result<string, string>)
    ensures dir.verify(serverDid).Err? ==> r == dir.verify(serverDid)
    ensures did.None? ==> r == dir.verify(serverDid)
  {
    match dir.verify(serverDid)
    case Err(e) => Err(e)
    case Ok(url) => Ok(if did.Some? then AddRequestParams(codec, url, [("did", did.value)]) else url)
  }

  /** Adding a single `did` parameter sets it; an empty DID reads back as no `did` at all. */
  lemma DidParamSet(codec: QueryCodec, url: string, did: string)
    requires QueryRoundTrip(codec) && Split(url, "").netloc != ""
    ensures did != "" ==> Get(codec.parse(Split(AddRequestParams(codec, url, [("did", did)]), "").query), "did") == Some(did)
    ensures did == "" ==> Get(codec.parse(Split(AddRequestParams(codec, url, [("did", did)]), "").query), "did").None?
  {
    var params := [("did", did)];
    assert Get(params, "did") == Some(did);
    assert UniqueKeys(params);
    AddRequestParamsSets(codec, url, params, "did");
  }

  /** A key among the added parameters takes its given value, or reads as absent when that value is empty. */
  lemma AddRequestParamsSets(codec: QueryCodec, url: string, params: Pairs, k: string)
    requires QueryRoundTrip(codec) && UniqueKeys(params) && Split(url, "").netloc != ""
    requires Get(params, k).Some?
    ensures Get(codec.parse(Split(AddRequestParams(codec, url, params), "").query), k) == DropBlank(Get(params, k))
  {
    AddRequestParamsMerges(codec, url, params);
  }

  /**
   * With a local DID, the resolved URL routes to it through the `did` query
   * parameter (an empty DID is dropped again when the query is read).
   */
  lemma ResolveServerRoutesDid(dir: Directory, codec: QueryCodec, serverDid: string, did: string)
    requires QueryRoundTrip(codec)
    requires dir.verify(serverDid).Ok? && Split(dir.verify(serverDid).value, "").netloc != ""
    ensures ResolveServer(dir, codec, serverDid, Some(did)).Ok?
    ensures
      var url := dir.verify(serverDid).value;
      var after := Split(ResolveServer(dir, codec, serverDid, Some(did)).value, "");
      && Get(codec.parse(after.query), "did") == DropBlank(Some(did))
      && after.scheme == Split(url, "").scheme && after.netloc == Split(url, "").netloc
  {
    var url := dir.verify(serverDid).value;
    var params := [("did", did)];
    assert UniqueKeys(params);
    DidParamSet(codec, url, did);
  }
}

=== FILE: transport_hook.dfy ===
/**
 * The pass-through transport hooks: a hook reports the endpoint it was
 * built with and seals and opens messages without changing them.
 */
module TransportHook {
  import opened Wrappers
  import opened Wire

  /** `TransportHook(endpoint)`. */
  datatype Hook = Hook(endpoint: string) {
    /** `get_endpoint`. */
    function GetEndpoint(): (e: string)
      ensures e == endpoint
    {
      endpoint
    }

    /** `seal_message`. */
    function SealMessage(data: string): (sealed: string)
      ensures |sealed| == |data| && forall i :: 0 <= i < |data| ==> sealed[i] == data[i]
    {
      data
    }

    /** `open_message`. */
    function OpenMessage(data: string): (plain: string)
      ensures |plain| == |data| && forall i :: 0 <= i < |data| ==> plain[i] == data[i]
    {
      data
    }

    /** The hook seen as a channel between two identities. */
    function AsChannel(): Channel {
      Channel(x => SealMessage(x), x => Some(OpenMessage(x)))
    }
  }

  /** `TransportManager.get_client_hook(url_or_id)`. */
  function ClientHook(urlOrId: string): (h: Hook)
    ensures h.GetEndpoint() == urlOrId
  {
    Hook(urlOrId)
  }

  /** The request a server hook is asked for; its contents are never read. */
  datatype HookRequest = HookRequest(path: string, headers: seq<(string, string)>)

  /** `TransportManager.get_server_hook(request)`. */
  function ServerHook(request: HookRequest): (h: Hook)
    ensures h.GetEndpoint() == "client://"
  {
    Hook("client://")
  }

  /** Opening what a hook sealed gives back the original text. */
  lemma OpenSealed(h: Hook, x: string)
    ensures h.OpenMessage(h.SealMessage(x)) == x
  {
  }

  /**
   * The pass-through hook satisfies the round-trip law every channel in
   * this model is assumed to obey, so that law can be met.
   */
  lemma HookChannelRoundTrip(h: Hook)
    ensures ChannelRoundTrip(h.AsChannel())
  {
    forall x ensures h.AsChannel().open(h.AsChannel().seal(x)) == Some(x) {
      OpenSealed(h, x);
    }
  }

  /** Server hooks do not depend on the request. */
  lemma ServerHookIgnoresRequest(a: HookRequest, b: HookRequest)
    ensures ServerHook(a) == ServerHook(b)
  {
  }
}

=== FILE: transport_security.dfy ===
/**
 * DNS-rebinding protection for the HTTP transports: the checks a request's
 * Host, Origin and Content-Type headers must pass before a transport
 * touches any session state.
 */
module TransportSecurity {
  import opened Wrappers
  import opened Text
  import opened Wire

  /** `TransportSecuritySettings`. */
  datatype Settings = Settings(enableDnsRebindingProtection: bool, allowedHosts: seq<string>, allowedOrigins: seq<string>)

  /** The three request headers the checks read; `None` when the header is absent. */
  datatype Headers = Headers(host: Option<string>, origin: Option<string>, contentType: Option<string>)

  /** The settings a middleware built with `settings` (or with none) uses. */
  function EffectiveSettings(settings: Option<Settings>): (s: Settings)
    ensures settings.Some? ==> s == settings.value
    ensures settings.None? ==> !s.enableDnsRebindingProtection && s.allowedHosts == [] && s.allowedOrigins == []
  {
    match settings
    case Some(given) => given
    case None => Settings(false, [], [])
  }

  /** A pattern `B:*` admits every value that starts with `B:`; the port text is not examined. */
  predicate PortWildcard(pattern: string, value: string) {
    EndsWith(pattern, ":*") && StartsWith(value, pattern[..|pattern| - 2] + ":")
  }

  /** A value is permitted by an allow-list: listed exactly, or admitted by one of its wildcard patterns. */
  ghost predicate Permitted(value: string, allowed: seq<string>) {
    value in allowed || exists i :: 0 <= i < |allowed| && PortWildcard(allowed[i], value)
  }

  /** The loop over the allow-list looking for a wildcard pattern that admits `value`. */
  function WildcardMatch(value: string, allowed: seq<string>): (ok: bool)
    ensures ok <==> exists i :: 0 <= i < |allowed| && PortWildcard(allowed[i], value)
    decreases |allowed|
  {
    if |allowed| == 0 then false
    else if PortWildcard(allowed[0], value) then true
    else
      var rest := WildcardMatch(value, allowed[1..]);
      assert forall i :: 1 <= i < |allowed| ==> allowed[i] == allowed[1..][i - 1];
      rest
  }

  /** `_validate_host`. */
  function ValidateHost(s: Settings, host: Option<string>): (ok: bool)
    ensures ok <==> host.Some? && host.value != "" && Permitted(host.value, s.allowedHosts)
  {
    if host.None? || host.value == "" then false
    else if host.value in s.allowedHosts then true
    else WildcardMatch(host.value, s.allowedHosts)
  }

  /** `_validate_origin`: an absent or empty Origin is a same-origin request and passes. */
  function ValidateOrigin(s: Settings, origin: Option<string>): (ok: bool)
    ensures ok <==> origin.None? || origin.value == "" || Permitted(origin.value, s.allowedOrigins)
  {
    if origin.None? || origin.value == "" then true
    else if origin.value in s.allowedOrigins then true
    else WildcardMatch(origin.value, s.allowedOrigins)
  }

  /**
   * `_validate_content_type`: a header is accepted exactly when it is present
   * and begins, ignoring the case of ASCII letters, with one of the two
   * accepted media types; whatever follows (parameters, suffixes) is not read.
   */
  function ValidateContentType(contentType: Option<string>): (ok: bool)
    ensures ok <==>
      && contentType.Some?
      && (FoldedPrefix(contentType.value, "application/tsp") || FoldedPrefix(contentType.value, "application/json"))
    ensures ok ==> |contentType.value| >= |"application/tsp"|
  {
    match contentType
    case None => false
    case Some(ct) =>
      LowerStartsWith(ct, "application/tsp");
      LowerStartsWith(ct, "application/json");
      ct != "" && (StartsWith(Lower(ct), "application/tsp") || StartsWith(Lower(ct), "application/json"))
  }

  const InvalidContentType := Response(400, "Invalid Content-Type header")
  const InvalidHost := Response(421, "Invalid Host header")
  const InvalidOrigin := Response(400, "Invalid Origin header")

  /**
   * `validate_request`: `None` when the request may proceed, otherwise the
   * error response. Content-Type is checked first and for every POST, then
   * (only with protection enabled) Host, then Origin.
   */
  function ValidateRequest(s: Settings, h: Headers, isPost: bool): (r: Option<Response>)
    ensures r.None? <==>
      (isPost ==> ValidateContentType(h.contentType))
      && (s.enableDnsRebindingProtection ==> ValidateHost(s, h.host) && ValidateOrigin(s, h.origin))
    ensures isPost && !ValidateContentType(h.contentType) ==> r == Some(InvalidContentType)
    ensures r == Some(InvalidHost) <==>
      (isPost ==> ValidateContentType(h.contentType)) && s.enableDnsRebindingProtection && !ValidateHost(s, h.host)
    ensures r.Some? ==> r.value in {InvalidContentType, InvalidHost, InvalidOrigin}
  {
    if isPost && !ValidateContentType(h.contentType) then Some(InvalidContentType)
    else if !s.enableDnsRebindingProtection then None
    else if !ValidateHost(s, h.host) then Some(InvalidHost)
    else if !ValidateOrigin(s, h.origin) then Some(InvalidOrigin)
    else None
  }

  /** Without settings the middleware lets every GET through, whatever its headers. */
  lemma DefaultAdmitsEveryGet(h: Headers)
    ensures ValidateRequest(EffectiveSettings(None), h, false) == None
  {
  }

  /** A missing or empty Host header never passes the host check. */
  lemma MissingHostRejected(s: Settings, host: Option<string>)
    requires host.None? || host == Some("")
    ensures !ValidateHost(s, host)
  {
  }

  /** The wildcard is a prefix test only: `localhost:*` admits `localhost:` and `localhost:abc`. */
  lemma WildcardIgnoresPortText()
    ensures ValidateHost(Settings(true, ["localhost:*"], []), Some("localhost:"))
    ensures ValidateHost(Settings(true, ["localhost:*"], []), Some("localhost:abc"))
    ensures !ValidateHost(Settings(true, ["localhost:*"], []), Some("localhost"))
  {
    assert PortWildcard("localhost:*", "localhost:");
    assert PortWildcard("localhost:*", "localhost:abc");
    assert !PortWildcard("localhost:*", "localhost");
  }

  /** The Content-Type check ignores letter case. */
  lemma ContentTypeIgnoresCase(ct: string)
    ensures ValidateContentType(Some(ct)) == ValidateContentType(Some(Lower(ct)))
  {
    assert Lower(Lower(ct)) == Lower(ct);
  }

  /** The content type the SSE client posts with passes the Content-Type check. */
  lemma ClientContentTypeAccepted()
    ensures ValidateContentType(Some("application/tsp"))
  {
    assert Lower("application/tsp") == "application/tsp";
  }

  /** A header may carry parameters after the media type: only its start is examined. */
  lemma ContentTypeParametersAccepted()
    ensures ValidateContentType(Some("application/json; charset=utf-8"))
    ensures ValidateContentType(Some("Application/TSP+x"))
    ensures !ValidateContentType(Some("text/application/json"))
  {
    assert Lower("application/json; charset=utf-8")[..16] == "application/json";
    assert Lower("Application/TSP+x")[..15] == "application/tsp";
    assert Lower("text/application/json")[0] == 't';
  }

  /** A POST with a bad Content-Type is refused even when DNS-rebinding protection is off. */
  lemma PostContentTypeCheckedWhenDisabled(h: Headers)
    requires !ValidateContentType(h.contentType)
    ensures ValidateRequest(EffectiveSettings(None), h, true) == Some(InvalidContentType)
  {
  }
}

=== FILE: urllib.dfy ===
/**
 * The parts of Python's `urllib.parse` the transports call: `urlsplit`,
 * `urlunsplit`, `urljoin` (reference resolution after section 5.2.2 of
 * RFC 3986, in CPython's non-strict form) and `quote`. A component that
 * is absent is the empty string, as in `urllib`.
 */
module UrlLib {
  import opened Wrappers
  import opened Text
  import opened Query

  /** The five components `urlsplit` returns. */
  datatype Parts = Parts(scheme: string, netloc: string, path: string, query: string, fragment: string)

  /** `urllib.parse.uses_relative`: schemes for which `urljoin` resolves references. */
  const UsesRelative: seq<string> :=
    ["", "ftp", "http", "gopher", "nntp", "imap", "wais", "file", "https", "shttp", "mms",
     "prospero", "rtsp", "rtsps", "rtspu", "sftp", "svn", "svn+ssh", "ws", "wss"]

  /** `urllib.parse.uses_netloc`: schemes whose URLs carry a `//netloc`. */
  const UsesNetloc: seq<string> :=
    ["", "ftp", "http", "gopher", "nntp", "telnet", "imap", "wais", "file", "mms", "https",
     "shttp", "snews", "prospero", "rtsp", "rtsps", "rtspu", "rsync", "svn", "svn+ssh", "sftp",
     "nfs", "git", "git+ssh", "ws", "wss", "itms-services"]

  /** `s.find(c)`, with `None` for -1. */
  function IndexOf(s: string, c: char): (r: Option<nat>)
    ensures r.Some? ==> r.value < |s| && s[r.value] == c && c !in s[..r.value]
    ensures r.None? ==> c !in s
    decreases |s|
  {
    if |s| == 0 then None
    else if s[0] == c then Some(0)
    else match IndexOf(s[1..], c)
      case None => None
      case Some(i) => assert s[..i + 1] == [s[0]] + s[1..][..i]; Some(i + 1)
  }

  predicate IsAsciiLetter(c: char) {
    ('a' <= c <= 'z') || ('A' <= c <= 'Z')
  }

  /** `urllib.parse.scheme_chars`. */
  predicate IsSchemeChar(c: char) {
    IsAsciiLetter(c) || ('0' <= c <= '9') || c == '+' || c == '-' || c == '.'
  }

  /** What `urlsplit` can return as a scheme: empty, or a lower-case name starting with a letter. */
  predicate SchemeShaped(s: string) {
    s == "" || (IsAsciiLetter(s[0]) && (forall i :: 0 <= i < |s| ==> IsSchemeChar(s[i])) && Lower(s) == s)
  }

  predicate IsNetlocDelimiter(c: char) {
    c == '/' || c == '?' || c == '#'
  }

  /** A network location as `urlsplit` cuts it: it contains no `/`, `?` or `#`. */
  predicate NetlocShaped(n: string) {
    forall i :: 0 <= i < |n| ==> !IsNetlocDelimiter(n[i])
  }

  /** The index of the first `/`, `?` or `#` at or after `from`, or `|s|` (`_splitnetloc`). */
  function NetlocEnd(s: string, from: nat): (e: nat)
    requires from <= |s|
    ensures from <= e <= |s|
    ensures NetlocShaped(s[from..e])
    ensures e < |s| ==> IsNetlocDelimiter(s[e])
    decreases |s| - from
  {
    if from == |s| || IsNetlocDelimiter(s[from]) then from
    else
      var e := NetlocEnd(s, from + 1);
      assert s[from..e] == [s[from]] + s[from + 1..e];
      e
  }

  /** The leading `scheme:` of `urlsplit`: a letter, then scheme characters, up to the first `:`. */
  function SplitScheme(url: string, default: string): (r: (string, string))
    ensures r.0 == default || (SchemeShaped(r.0) && r.0 != "")
  {
    match IndexOf(url, ':')
    case Some(i) =>
      if i > 0 && IsAsciiLetter(url[0]) && (forall j :: 0 <= j < i ==> IsSchemeChar(url[j])) then
        LowerKeepsSchemeChars(url[..i]);
        (Lower(url[..i]), url[i + 1..])
      else (default, url)
    case None => (default, url)
  }

  lemma LowerKeepsSchemeChars(s: string)
    requires |s| > 0 && IsAsciiLetter(s[0]) && forall j :: 0 <= j < |s| ==> IsSchemeChar(s[j])
    ensures SchemeShaped(Lower(s))
  {
    var l := Lower(s);
    assert Lower(l) == l;
  }

  /** The `//netloc` cut of `urlsplit`: the network location and what follows it. */
  function CutNetloc(rest: string): (r: (string, string))
    ensures NetlocShaped(r.0)
    ensures !StartsWith(rest, "//") ==> r == ("", rest)
    ensures r.0 != "" ==> r.1 == "" || IsNetlocDelimiter(r.1[0])
  {
    if StartsWith(rest, "//") then var e := NetlocEnd(rest, 2); (rest[2..e], rest[e..]) else ("", rest)
  }

  /** `s.split(c, 1)` when `c in s`, else `(s, "")`. */
  function CutAt(s: string, c: char): (r: (string, string))
    ensures c !in r.0
    ensures |r.0| <= |s| && r.0 == s[..|r.0|]
    ensures |r.0| < |s| ==> r.1 == s[|r.0| + 1..]
    ensures |r.0| == |s| ==> r.1 == ""
  {
    match IndexOf(s, c)
    case Some(i) => (s[..i], s[i + 1..])
    case None => (s, "")
  }

  /** What is absent from a string is absent from its slices. */
  lemma AbsentFromSlices(s: string, c: char, i: nat, j: nat)
    requires c !in s && i <= j <= |s|
    ensures c !in s[i..j]
  {
    assert forall k :: 0 <= k < j - i ==> s[i..j][k] == s[i + k];
  }

  /** `urlsplit(url, default)`. */
  function Split(url: string, default: string): (p: Parts)
    ensures p.scheme == default || (SchemeShaped(p.scheme) && p.scheme != "")
    ensures NetlocShaped(p.netloc)
    ensures '?' !in p.path && '#' !in p.path && '#' !in p.query
    ensures p.netloc != "" ==> p.path == "" || p.path[0] == '/'
  {
    var (scheme, rest) := SplitScheme(url, default);
    var (netloc, rest2) := CutNetloc(rest);
    var (rest3, fragment) := CutAt(rest2, '#');
    var (path, query) := CutAt(rest3, '?');
    AbsentFromSlices(rest3, '#', 0, |path|);
    assert |path| < |rest3| ==> '#' !in rest3[|path| + 1..] by {
      if |path| < |rest3| { AbsentFromSlices(rest3, '#', |path| + 1, |rest3|); }
    }
    assert netloc != "" && path != "" ==> rest3[0] == path[0] && rest2[0] == rest3[0];
    Parts(scheme, netloc, path, query, fragment)
  }

  /**
   * `urlunsplit(parts)`: a non-empty scheme is written first, followed by
   * `:`; a non-empty fragment is written last, after `#`, and a non-empty
   * query just before it, after `?`.
   */
  function Unsplit(p: Parts): (r: string)
    ensures p.scheme != "" ==> StartsWith(r, p.scheme + ":")
    ensures p.fragment != "" ==> EndsWith(r, "#" + p.fragment)
    ensures p.query != "" && p.fragment == "" ==> EndsWith(r, "?" + p.query)
  {
    var url :=
      if p.netloc != "" then
        "//" + p.netloc + (if p.path != "" && p.path[0] != '/' then "/" + p.path else p.path)
      else if StartsWith(p.path, "//") then "//" + p.path
      else if p.scheme != "" && p.scheme in UsesNetloc && (p.path == "" || p.path[0] == '/') then "//" + p.path
      else p.path;
    var head := if p.scheme != "" then p.scheme + ":" else "";
    var query := if p.query != "" then "?" + p.query else "";
    var fragment := if p.fragment != "" then "#" + p.fragment else "";
    var rest := url + query + fragment;
    ConcatEnds(head, rest);
    ConcatEnds(url + query, fragment);
    ConcatEnds(url, query);
    assert fragment == "" ==> rest == url + query;
    EndsWithExtend(head, rest, fragment);
    EndsWithExtend(head, url + query, query);
    head + rest
  }

  /** Components `urlsplit` returns and `urlunsplit` writes back unchanged. */
  predicate WellFormed(p: Parts) {
    && SchemeShaped(p.scheme)
    && p.netloc != "" && NetlocShaped(p.netloc)
    && (p.path == "" || p.path[0] == '/')
    && '?' !in p.path && '#' !in p.path && '#' !in p.query
  }

  /** The `?query#fragment` tail `urlunsplit` writes. */
  function QueryFragment(query: string, fragment: string): string {
    (if query != "" then "?" + query else "") + (if fragment != "" then "#" + fragment else "")
  }

  /** With a network location, `urlunsplit` writes `scheme:` then `//netloc`, the path, query and fragment. */
  lemma UnsplitWithNetloc(p: Parts)
    requires p.netloc != ""
    ensures Unsplit(p) ==
      (if p.scheme != "" then p.scheme + ":" else "")
      + ("//" + p.netloc + ((if p.path != "" && p.path[0] != '/' then "/" + p.path else p.path)
                            + QueryFragment(p.query, p.fragment)))
  {
    var scheme := if p.scheme != "" then p.scheme + ":" else "";
    var path := if p.path != "" && p.path[0] != '/' then "/" + p.path else p.path;
    var query := if p.query != "" then "?" + p.query else "";
    var fragment := if p.fragment != "" then "#" + p.fragment else "";
    var netloc := "//" + p.netloc;
    assert Unsplit(p) == scheme + ((netloc + path) + query + fragment);
    assert QueryFragment(p.query, p.fragment) == query + fragment;
    Regroup(scheme, netloc, path, query, fragment);
  }

  /** Regrouping five concatenated strings. */
  lemma Regroup(a: string, b: string, c: string, d: string, e: string)
    ensures a + ((b + c) + d + e) == a + (b + (c + (d + e)))
  {
  }

  /** Splitting what `urlunsplit` wrote gives the components back. */
  lemma SplitUnsplit(p: Parts)
    requires WellFormed(p)
    ensures Split(Unsplit(p), "") == p
  {
    var s := Unsplit(p);
    var qf := QueryFragment(p.query, p.fragment);
    var tail := p.path + qf;
    var rest := "//" + p.netloc + tail;
    UnsplitWithNetloc(p);
    SchemeThenRest(p.scheme, rest);
    var (scheme, rest1) := SplitScheme(s, "");
    assert scheme == p.scheme && rest1 == rest;
    assert tail == "" || IsNetlocDelimiter(tail[0]);
    CutNetlocOf(p.netloc, tail);
    var (netloc, rest2) := CutNetloc(rest1);
    assert netloc == p.netloc && rest2 == tail;
    PathQueryFragment(p.path, p.query, p.fragment);
    var (rest3, fragment) := CutAt(rest2, '#');
    var (path, query) := CutAt(rest3, '?');
    assert fragment == p.fragment && path == p.path && query == p.query;
  }

  /** `urlsplit` reads back a well-formed scheme prefix. */
  lemma SchemeThenRest(scheme: string, rest: string)
    requires SchemeShaped(scheme) && StartsWith(rest, "//")
    ensures SplitScheme((if scheme != "" then scheme + ":" else "") + rest, "") == (scheme, rest)
  {
    var s := (if scheme != "" then scheme + ":" else "") + rest;
    if scheme != "" {
      assert forall j :: 0 <= j < |scheme| ==> s[j] == scheme[j];
      assert ':' !in scheme by {
        forall j | 0 <= j < |scheme| ensures scheme[j] != ':' { assert IsSchemeChar(scheme[j]); }
      }
      IndexOfAfter(scheme, ':', ":" + rest);
      assert s == scheme + (":" + rest);
      assert s[..|scheme|] == scheme;
      assert s[|scheme| + 1..] == rest;
    } else {
      assert s == rest && s[0] == '/';
    }
  }

  /** The network location ends where the well-formed path, query or fragment begins. */
  lemma CutNetlocOf(netloc: string, tail: string)
    requires NetlocShaped(netloc)
    requires tail == "" || IsNetlocDelimiter(tail[0])
    ensures CutNetloc("//" + netloc + tail) == (netloc, tail)
  {
    var rest := "//" + netloc + tail;
    NetlocEndScan(rest, 2, 2 + |netloc|);
    assert rest[2..2 + |netloc|] == netloc;
    assert rest[2 + |netloc|..] == tail;
  }

  lemma {:induction false} NetlocEndScan(s: string, from: nat, e: nat)
    requires from <= e <= |s|
    requires forall i :: from <= i < e ==> !IsNetlocDelimiter(s[i])
    requires e == |s| || IsNetlocDelimiter(s[e])
    ensures NetlocEnd(s, from) == e
    decreases e - from
  {
    if from < e {
      NetlocEndScan(s, from + 1, e);
    }
  }

  /** Cutting at `c` where `a` has none and `c` opens `b`. */
  lemma CutAtAfter(a: string, c: char, b: string)
    requires c !in a && |b| > 0 && b[0] == c
    ensures CutAt(a + b, c) == (a, b[1..])
  {
    IndexOfAfter(a, c, b);
    assert (a + b)[..|a|] == a && (a + b)[|a| + 1..] == b[1..];
  }

  /** The `#` and `?` cuts of `urlsplit` recover path, query and fragment. */
  lemma PathQueryFragment(path: string, query: string, fragment: string)
    requires '?' !in path && '#' !in path && '#' !in query
    ensures CutAt(path + QueryFragment(query, fragment), '#').1 == fragment
    ensures CutAt(CutAt(path + QueryFragment(query, fragment), '#').0, '?') == (path, query)
  {
    var pq := path + (if query != "" then "?" + query else "");
    assert path + QueryFragment(query, fragment) == pq + (if fragment != "" then "#" + fragment else "");
    assert '#' !in pq;
    if fragment != "" {
      CutAtAfter(pq, '#', "#" + fragment);
    } else {
      assert CutAt(pq, '#') == (pq, "");
    }
    if query != "" {
      CutAtAfter(path, '?', "?" + query);
    } else {
      assert pq == path;
    }
  }

  /** The first `c` of `a + b` is that of `b`, when `a` has none and `b` starts with one. */
  lemma {:induction false} IndexOfAfter(a: string, c: char, b: string)
    requires c !in a && |b| > 0 && b[0] == c
    ensures IndexOf(a + b, c) == Some(|a|)
    decreases |a|
  {
    if |a| > 0 {
      assert (a + b)[1..] == a[1..] + b;
      IndexOfAfter(a[1..], c, b);
    }
  }

  /** `urlunsplit` then `urlsplit` keeps scheme and network location, whatever the path. */
  lemma UnsplitKeepsOrigin(p: Parts)
    requires SchemeShaped(p.scheme) && p.netloc != "" && NetlocShaped(p.netloc)
    ensures Split(Unsplit(p), "").scheme == p.scheme
    ensures Split(Unsplit(p), "").netloc == p.netloc
  {
    var path' := if p.path != "" && p.path[0] != '/' then "/" + p.path else p.path;
    var tail := path' + QueryFragment(p.query, p.fragment);
    var rest := "//" + p.netloc + tail;
    UnsplitWithNetloc(p);
    SchemeThenRest(p.scheme, rest);
    var (scheme, rest1) := SplitScheme(Unsplit(p), "");
    assert scheme == p.scheme && rest1 == rest;
    assert tail == "" || IsNetlocDelimiter(tail[0]);
    CutNetlocOf(p.netloc, tail);
  }

  /** `parse_qsl` and `urlencode`, whose percent-encoding is outside this model. */
  datatype QueryCodec = QueryCodec(parse: string -> Pairs, encode: Pairs -> string)

  /**
   * `parse_qsl(urlencode(d))` gives back the items of the dict `d` whose value
   * is not empty: `parse_qsl` runs with `keep_blank_values=False`, so it drops
   * every `k=` item, and nothing it returns has an empty value. The encoded
   * text never holds a raw `#` (it is percent-encoded).
   */
  ghost predicate QueryRoundTrip(codec: QueryCodec) {
    && (forall d :: UniqueKeys(d) ==> codec.parse(codec.encode(d)) == Filled(d))
    && (forall s :: NoBlank(codec.parse(s)))
    && (forall d :: '#' !in codec.encode(d))
  }

  // ---------------------------------------------------------------------
  // Path segments, for `urljoin`'s dot-segment removal.

  /** `s.split('/')`. */
  function Segments(s: string): (r: seq<string>)
    ensures |r| >= 1
    ensures forall i :: 0 <= i < |r| ==> '/' !in r[i]
    decreases |s|
  {
    match IndexOf(s, '/')
    case None => [s]
    case Some(i) => [s[..i]] + Segments(s[i + 1..])
  }

  /** `'/'.join(segs)`. */
  function JoinSegments(segs: seq<string>): string
    decreases |segs|
  {
    if |segs| == 0 then ""
    else if |segs| == 1 then segs[0]
    else segs[0] + "/" + JoinSegments(segs[1..])
  }

  /** Joining the pieces of a split gives the string back. */
  lemma {:induction false} JoinSegmentsOfSegments(s: string)
    ensures JoinSegments(Segments(s)) == s
    decreases |s|
  {
    match IndexOf(s, '/')
    case None =>
    case Some(i) =>
      var tail := Segments(s[i + 1..]);
      var segs := [s[..i]] + tail;
      assert Segments(s) == segs;
      assert segs[0] == s[..i] && segs[1..] == tail && |segs| > 1;
      assert JoinSegments(segs) == s[..i] + "/" + JoinSegments(tail);
      JoinSegmentsOfSegments(s[i + 1..]);
      assert s == s[..i] + "/" + s[i + 1..];
  }

  /** `filter(None, segs)`: the non-empty segments. */
  function NonEmpty(segs: seq<string>): (r: seq<string>)
    ensures forall i :: 0 <= i < |r| ==> r[i] != ""
    decreases |segs|
  {
    if |segs| == 0 then []
    else if segs[0] == "" then NonEmpty(segs[1..])
    else [segs[0]] + NonEmpty(segs[1..])
  }

  /** The loop of `urljoin` over segments: `..` pops (when it can), `.` is dropped. */
  function RemoveDots(resolved: seq<string>, segs: seq<string>): seq<string>
    decreases |segs|
  {
    if |segs| == 0 then resolved
    else if segs[0] == ".." then RemoveDots(if |resolved| > 0 then resolved[..|resolved| - 1] else resolved, segs[1..])
    else if segs[0] == "." then RemoveDots(resolved, segs[1..])
    else RemoveDots(resolved + [segs[0]], segs[1..])
  }

  predicate IsDotSegment(seg: string) {
    seg == "." || seg == ".."
  }

  /** Without dot segments the loop copies every segment. */
  lemma {:induction false} RemoveDotsNoDots(resolved: seq<string>, segs: seq<string>)
    requires forall i :: 0 <= i < |segs| ==> !IsDotSegment(segs[i])
    ensures RemoveDots(resolved, segs) == resolved + segs
    decreases |segs|
  {
    if |segs| > 0 {
      RemoveDotsNoDots(resolved + [segs[0]], segs[1..]);
      assert resolved + [segs[0]] + segs[1..] == resolved + segs;
    }
  }

  /** The path `urljoin` builds from a base path and a non-empty reference path. */
  function MergePath(basePath: string, refPath: string): string
    requires refPath != ""
  {
    var baseAll := Segments(basePath);
    var baseParts := if baseAll[|baseAll| - 1] != "" then baseAll[..|baseAll| - 1] else baseAll;
    var segments :=
      if refPath[0] == '/' then Segments(refPath)
      else
        var all := baseParts + Segments(refPath);
        if |all| >= 2 then [all[0]] + NonEmpty(all[1..|all| - 1]) + [all[|all| - 1]] else all;
    var resolved := RemoveDots([], segments);
    var resolved' := if IsDotSegment(segments[|segments| - 1]) then resolved + [""] else resolved;
    var joined := JoinSegments(resolved');
    if joined == "" then "/" else joined
  }

  /** An absolute path without dot segments is taken over as it is. */
  lemma MergeAbsolutePath(basePath: string, refPath: string)
    requires refPath != "" && refPath[0] == '/'
    requires forall i :: 0 <= i < |Segments(refPath)| ==> !IsDotSegment(Segments(refPath)[i])
    ensures MergePath(basePath, refPath) == refPath
  {
    RemoveDotsNoDots([], Segments(refPath));
    assert [] + Segments(refPath) == Segments(refPath);
    JoinSegmentsOfSegments(refPath);
  }

  /**
   * `urljoin(base, url)`: an empty side gives the other back, and a
   * reference whose own scheme differs from the base's, or is one
   * `urljoin` does not resolve against, is returned as it is.
   */
  function Join(base: string, url: string): (r: string)
    ensures base == "" ==> r == url
    ensures url == "" ==> r == base
    ensures base != "" && url != "" && Split(url, Split(base, "").scheme).scheme != Split(base, "").scheme ==> r == url
    ensures base != "" && url != "" && Split(url, Split(base, "").scheme).scheme !in UsesRelative ==> r == url
  {
    if base == "" then url
    else if url == "" then base
    else
      var b := Split(base, "");
      var r := Split(url, b.scheme);
      if r.scheme != b.scheme || r.scheme !in UsesRelative then url
      else if r.scheme in UsesNetloc && r.netloc != "" then Unsplit(r)
      else
        var netloc := if r.scheme in UsesNetloc then b.netloc else r.netloc;
        if r.path == "" then
          Unsplit(Parts(r.scheme, netloc, b.path, if r.query == "" then b.query else r.query, r.fragment))
        else
          Unsplit(Parts(r.scheme, netloc, MergePath(b.path, r.path), r.query, r.fragment))
  }

  /**
   * A reference with a path but no scheme of its own and no network
   * location is merged into the base: the base's network location, the
   * merged path, and the reference's query and fragment.
   */
  lemma JoinPathReference(base: string, ref: string)
    requires base != "" && ref != ""
    requires Split(base, "").scheme in UsesRelative && Split(base, "").scheme in UsesNetloc
    requires Split(ref, Split(base, "").scheme).scheme == Split(base, "").scheme
    requires Split(ref, Split(base, "").scheme).netloc == "" && Split(ref, Split(base, "").scheme).path != ""
    ensures
      var b := Split(base, "");
      var r := Split(ref, b.scheme);
      Join(base, ref) == Unsplit(Parts(b.scheme, b.netloc, MergePath(b.path, r.path), r.query, r.fragment))
  {
  }

  /**
   * A reference that is an absolute path (one leading `/`) keeps the
   * base's scheme and network location (section 5.2.2 of RFC 3986).
   */
  lemma JoinAbsolutePathKeepsOrigin(base: string, ref: string)
    requires Split(base, "").scheme in ["http", "https"] && Split(base, "").netloc != ""
    requires StartsWith(ref, "/") && !StartsWith(ref, "//")
    ensures Split(Join(base, ref), "").scheme == Split(base, "").scheme
    ensures Split(Join(base, ref), "").netloc == Split(base, "").netloc
  {
    var b := Split(base, "");
    SplitAbsolutePath(ref, b.scheme);
    assert b.scheme in UsesRelative && b.scheme in UsesNetloc;
    assert base != "" by {
      assert Split("", "").netloc == "";
    }
    JoinPathReference(base, ref);
    var r := Split(ref, b.scheme);
    UnsplitKeepsOrigin(Parts(b.scheme, b.netloc, MergePath(b.path, r.path), r.query, r.fragment));
  }

  /** An absolute path splits into the default scheme, no network location and a path starting with `/`. */
  lemma SplitAbsolutePath(ref: string, default: string)
    requires StartsWith(ref, "/") && !StartsWith(ref, "//")
    ensures Split(ref, default).scheme == default
    ensures Split(ref, default).netloc == ""
    ensures Split(ref, default).path != "" && Split(ref, default).path[0] == '/'
  {
    assert SplitScheme(ref, default) == (default, ref);
    assert CutNetloc(ref) == ("", ref);
    var (rest3, fragment) := CutAt(ref, '#');
    assert rest3 != "" && rest3[0] == '/' by {
      assert IndexOf(ref, '#') != Some(0);
    }
    var (path, query) := CutAt(rest3, '?');
    assert path != "" && path[0] == '/' by {
      assert IndexOf(rest3, '?') != Some(0);
    }
  }

  // ---------------------------------------------------------------------
  // `quote`

  /** Characters `quote(s)` (with the default `safe='/'`) leaves as they are. */
  predicate QuoteSafe(c: char) {
    IsAsciiLetter(c) || ('0' <= c <= '9') || c == '_' || c == '.' || c == '-' || c == '~' || c == '/'
  }

  /** The UTF-8 encoding of one character. */
  function Utf8(c: char): (r: seq<int>)
    ensures 1 <= |r| <= 4
    ensures forall i :: 0 <= i < |r| ==> 0 <= r[i] < 256
  {
    var n := c as int;
    if n < 0x80 then [n]
    else if n < 0x800 then [0xC0 + n / 64, 0x80 + n % 64]
    else if n < 0x10000 then [0xE0 + n / 4096, 0x80 + (n / 64) % 64, 0x80 + n % 64]
    else [0xF0 + n / 262144, 0x80 + (n / 4096) % 64, 0x80 + (n / 64) % 64, 0x80 + n % 64]
  }

  /** An upper-case hexadecimal digit. */
  predicate IsHexDigit(c: char) {
    ('0' <= c <= '9') || ('A' <= c <= 'F')
  }

  function HexDigit(d: int): (c: char)
    requires 0 <= d < 16
    ensures IsHexDigit(c)
    ensures HexValue(c) == d
  {
    if d < 10 then ('0' as int + d) as char else ('A' as int + d - 10) as char
  }

  /** The value of an upper-case hexadecimal digit. */
  function HexValue(c: char): int
    requires IsHexDigit(c)
  {
    if c <= '9' then c as int - '0' as int else c as int - 'A' as int + 10
  }

  /**
   * Text made only of safe characters and `%XX` escapes with upper-case
   * hex digits, read from left to right.
   */
  predicate Escaped(r: string)
    decreases |r|
  {
    || r == ""
    || (QuoteSafe(r[0]) && Escaped(r[1..]))
    || (|r| >= 3 && r[0] == '%' && IsHexDigit(r[1]) && IsHexDigit(r[2]) && Escaped(r[3..]))
  }

  /** Escaped text stays escaped when more escaped text follows it. */
  lemma {:induction false} EscapedConcat(a: string, b: string)
    requires Escaped(a) && Escaped(b)
    ensures Escaped(a + b)
    decreases |a|
  {
    if a == "" {
      assert a + b == b;
    } else if QuoteSafe(a[0]) && Escaped(a[1..]) {
      EscapedConcat(a[1..], b);
      assert (a + b)[1..] == a[1..] + b;
    } else {
      EscapedConcat(a[3..], b);
      assert (a + b)[3..] == a[3..] + b;
    }
  }

  /** The bytes a run of `%XX` escapes stands for; `None` when the text is not such a run. */
  function PercentDecode(s: string): (r: Option<seq<int>>)
    decreases |s|
  {
    if |s| == 0 then Some([])
    else if |s| >= 3 && s[0] == '%' && IsHexDigit(s[1]) && IsHexDigit(s[2]) then
      match PercentDecode(s[3..])
      case None => None
      case Some(rest) => Some([HexValue(s[1]) * 16 + HexValue(s[2])] + rest)
    else None
  }

  /** `%XX` for each byte, upper-case hex as `quote` writes it. */
  function PercentEncode(bytes: seq<int>): (r: string)
    requires forall i :: 0 <= i < |bytes| ==> 0 <= bytes[i] < 256
    ensures |r| == 3 * |bytes|
    ensures forall i :: 0 <= i < |r| ==> r[i] == '%' || IsHexDigit(r[i])
    ensures Escaped(r)
    decreases |bytes|
  {
    if |bytes| == 0 then ""
    else
      var r := ['%', HexDigit(bytes[0] / 16), HexDigit(bytes[0] % 16)] + PercentEncode(bytes[1..]);
      assert r[3..] == PercentEncode(bytes[1..]);
      r
  }

  /** Reading the escapes back gives the bytes that were escaped. */
  lemma {:induction false} PercentEncodeDecodes(bytes: seq<int>)
    requires forall i :: 0 <= i < |bytes| ==> 0 <= bytes[i] < 256
    ensures PercentDecode(PercentEncode(bytes)) == Some(bytes)
    decreases |bytes|
  {
    if |bytes| > 0 {
      var s := PercentEncode(bytes);
      PercentEncodeDecodes(bytes[1..]);
      assert s[3..] == PercentEncode(bytes[1..]);
      assert HexValue(s[1]) * 16 + HexValue(s[2]) == bytes[0];
      assert [bytes[0]] + bytes[1..] == bytes;
    }
  }

  /** A character of `quote`'s output: a safe character, `%` or an upper-case hex digit. */
  predicate QuoteOutputChar(c: char) {
    QuoteSafe(c) || c == '%' || IsHexDigit(c)
  }

  /**
   * `urllib.parse.quote(s)`: the output is safe characters and `%XX`
   * escapes only; safe text is left as it is.
   */
  function Quote(s: string): (r: string)
    ensures forall i :: 0 <= i < |r| ==> QuoteOutputChar(r[i])
    ensures Escaped(r)
    ensures (forall i :: 0 <= i < |s| ==> QuoteSafe(s[i])) ==> r == s
    ensures |s| > 0 ==> |r| > 0 && (r[0] == '/' <==> s[0] == '/')
    decreases |s|
  {
    if |s| == 0 then ""
    else
      var head := if QuoteSafe(s[0]) then [s[0]] else PercentEncode(Utf8(s[0]));
      assert QuoteSafe(s[0]) ==> head[1..] == "";
      EscapedConcat(head, Quote(s[1..]));
      head + Quote(s[1..])
  }

  /** `quote` works character by character: quoting a concatenation is concatenating the quotes. */
  lemma {:induction false} QuoteConcat(a: string, b: string)
    ensures Quote(a + b) == Quote(a) + Quote(b)
    decreases |a|
  {
    if |a| > 0 {
      assert (a + b)[0] == a[0] && (a + b)[1..] == a[1..] + b;
      QuoteConcat(a[1..], b);
    } else {
      assert a + b == b;
    }
  }

  /**
   * A safe character is kept, and any other character becomes the `%XX`
   * escapes of its UTF-8 bytes, which read back as exactly those bytes.
   */
  lemma QuoteChar(c: char)
    ensures QuoteSafe(c) ==> Quote([c]) == [c]
    ensures !QuoteSafe(c) ==> PercentDecode(Quote([c])) == Some(Utf8(c))
  {
    assert [c][1..] == "";
    if !QuoteSafe(c) {
      PercentEncodeDecodes(Utf8(c));
      assert Quote([c][1..]) == "";
      assert Quote([c]) == PercentEncode(Utf8(c)) + Quote([c][1..]);
      assert PercentEncode(Utf8(c)) + "" == PercentEncode(Utf8(c));
    }
  }

  /** `quote` keeps a leading `//` exactly when the input has one. */
  lemma QuoteKeepsDoubleSlash(s: string)
    ensures StartsWith(Quote(s), "//") <==> StartsWith(s, "//")
  {
    if |s| >= 1 {
      var r := Quote(s);
      var t := Quote(s[1..]);
      if s[0] == '/' {
        assert r == [s[0]] + t;
        if |s| >= 2 {
          assert r[1] == t[0];
        }
      } else {
        assert r[0] != '/';
      }
    }
  }
}

=== FILE: wire.dfy ===
/**
 * The collaborators the transports call but do not define, each given as
 * the functions it offers together with the laws the transports rely on:
 * the wallet (`tsp.SecureStore`), the identity-bound connection, the JSON
 * codec of SSE events and the JSON-RPC model validation. Also the values
 * that cross a transport's queues and the HTTP responses it writes.
 */
module Wire {
  import opened Wrappers
  import opened Base64Url

  /** A validated JSON-RPC message (`types.JSONRPCMessage`); its schema is outside this model. */
  datatype Message = Message(content: string)

  /** pydantic's `ValidationError`. */
  datatype ValidationError = ValidationError(detail: string)

  /**
   * `JSONRPCMessage.model_validate_json`, `model_dump_json`, and the
   * `json.dumps(model_dump(...))` text the WebSocket client sends instead.
   */
  datatype JsonRpcCodec = JsonRpcCodec(
    validate: string -> Result<Message, ValidationError>,
    dump: Message -> string,
    dumpViaDict: Message -> string)

  /** Either dumped text of a message validates back to that message. */
  ghost predicate DumpValidates(codec: JsonRpcCodec) {
    && (forall m :: codec.validate(codec.dump(m)) == Ok(m))
    && (forall m :: codec.validate(codec.dumpViaDict(m)) == Ok(m))
  }

  /** An exception a reader task forwards on the read stream as a value. */
  datatype Failure =
    | Invalid(error: ValidationError)   // a payload that failed model validation
    | Fatal(reason: string)             // any other exception caught by a reader

  /** What a reader task enqueues on the read stream: `SessionMessage | Exception`. */
  datatype Inbound = Received(message: Message) | Raised(failure: Failure)

  /** A value that reports an exception other than a validation error. */
  predicate IsFatal(x: Inbound) {
    x.Raised? && x.failure.Fatal?
  }

  /** An opened TSP message. */
  datatype Opened = Opened(sender: string, receiver: string, payload: string)

  /** The wallet operations on sealed TSP messages. */
  datatype SecureStore = SecureStore(
    seal: (string, string, string) -> Bytes,           // seal_message(sender, receiver, payload)
    senderReceiver: Bytes -> Option<(string, string)>, // get_sender_receiver; None where it raises
    open: Bytes -> Option<Opened>)                     // open_message; None where it raises

  /** A sealed message opens to what was sealed, and its envelope names the sealing pair. */
  ghost predicate SealOpens(store: SecureStore) {
    && (forall s, r, m :: store.open(store.seal(s, r, m)) == Some(Opened(s, r, m)))
    && (forall s, r, m :: store.senderReceiver(store.seal(s, r, m)) == Some((s, r)))
  }

  /** A connection between the local and one peer identity (`get_connection(did)`). */
  datatype Channel = Channel(seal: string -> string, open: string -> Option<string>)

  /** Whatever one end seals, the other end opens. */
  ghost predicate ChannelRoundTrip(channel: Channel) {
    forall x :: channel.open(channel.seal(x)) == Some(x)
  }

  /** The `{"event": ..., "data": ...}` object of an SSE event. */
  datatype SseEvent = SseEvent(event: string, data: string)

  /** `json.dumps` of an event object, and `json.loads` followed by `ServerSentEvent(**obj)`. */
  datatype EventCodec = EventCodec(dumps: SseEvent -> string, loads: string -> Option<SseEvent>)

  ghost predicate EventRoundTrip(codec: EventCodec) {
    forall e :: codec.loads(codec.dumps(e)) == Some(e)
  }

  /** A Starlette `Response(body, status_code=...)`. */
  datatype Response = Response(status: int, body: string)
}

=== FILE: wrappers.dfy ===
/** Failure-carrying result types shared by every module of the model. */
module Wrappers {

  /** A value that may be absent: Python's `None` versus a present value. */
  datatype Option<+T> = None | Some(value: T) {

    /** The value when present, otherwise `default`. */
    function GetOr(default: T): T {
      match this
      case Some(v) => v
      case None => default
    }
  }

  /** The outcome of an operation that may raise: `Ok` or the error it raised. */
  datatype Result<+T, +E> = Ok(value: T) | Err(error: E)
}

=== FILE: ws_client.dfy ===
/**
 * The WebSocket client transport: setting up the local identity and the
 * server URL, the transport check, the reader (which opens every frame,
 * whoever it is addressed to) and the writer (which seals each message to
 * the server's identity). The round trips with the server's reader and
 * writer are proved here.
 */
module WsClient {
  import opened Wrappers
  import opened Text
  import opened Query
  import opened UrlLib
  import opened Base64Url
  import opened Wire
  import opened Tmcp
  import opened WsServer
  import opened SseClient

  /** Whether a resolved server URL names the WebSocket transport. */
  predicate UsesWebSocket(url: string) {
    StartsWith(url, "ws://") || StartsWith(url, "wss://")
  }

  /** What the client connects with: its own identity, the URL, and the subprotocols it requests. */
  datatype Setup = Setup(did: string, url: string, subprotocols: seq<string>)

  /** The alias the client's identity is stored under. */
  function ClientAlias(name: string): string {
    name + "TmcpClient"
  }

  /**
   * The set-up of `websocket_client`: the identity, the server URL carrying
   * that identity, and the transport check, all before any connection is
   * made. Errors are the exceptions raised on the way.
   */
  function Connect(w: Wallet, dir: Directory, codec: QueryCodec, name: string, settings: TmcpSettings, uuid: string, serverDid: string): (r: Result<Setup, string>)
    ensures r.Ok? ==> UsesWebSocket(r.value.url) && r.value.subprotocols == [McpSubprotocol]
    ensures r.Ok? ==> InitIdentity(w, dir, ClientAlias(name), settings, uuid).result == Ok(r.value.did)
    ensures r.Ok? ==> ResolveServer(dir, codec, serverDid, Some(r.value.did)) == Ok(r.value.url)
    ensures InitIdentity(w, dir, ClientAlias(name), settings, uuid).result.Err? ==> r.Err?
    ensures dir.verify(serverDid).Err? ==> r.Err?
    ensures r.Ok? <==>
      var identity := InitIdentity(w, dir, ClientAlias(name), settings, uuid).result;
      && identity.Ok?
      && ResolveServer(dir, codec, serverDid, Some(identity.value)).Ok?
      && UsesWebSocket(ResolveServer(dir, codec, serverDid, Some(identity.value)).value)
  {
    match InitIdentity(w, dir, ClientAlias(name), settings, uuid).result
    case Err(e) => Err(e)
    case Ok(did) =>
      match ResolveServer(dir, codec, serverDid, Some(did))
      case Err(e) => Err(e)
      case Ok(url) =>
        if !UsesWebSocket(url) then Err("Server does not use WebSockets for transport: " + url)
        else Ok(Setup(did, url, [McpSubprotocol]))
  }

  /** A resolved URL that the WebSocket check lets through is rejected by the SSE check, and the reverse. */
  lemma TransportsExclusive(url: string)
    ensures UsesWebSocket(url) ==> SseTarget(url).Err?
    ensures UsesSse(url) ==> !UsesWebSocket(url)
  {
    if UsesWebSocket(url) {
      assert url[0] == 'w';
    }
    if UsesSse(url) {
      assert url[0] == 's';
    }
  }

  /**
   * A successful set-up routes to the client's identity: the URL carries
   * it as the `did` query parameter, and the server answers with the
   * subprotocol the client asked for.
   */
  lemma ConnectRoutesDid(w: Wallet, dir: Directory, codec: QueryCodec, name: string, settings: TmcpSettings, uuid: string, serverDid: string)
    requires QueryRoundTrip(codec)
    requires dir.verify(serverDid).Ok? && Split(dir.verify(serverDid).value, "").netloc != ""
    requires Connect(w, dir, codec, name, settings, uuid, serverDid).Ok?
    ensures var s := Connect(w, dir, codec, name, settings, uuid, serverDid).value;
      && Get(codec.parse(Split(s.url, "").query), "did") == DropBlank(Some(s.did))
      && AcceptedSubprotocol(s.subprotocols) in s.subprotocols
  {
    var s := Connect(w, dir, codec, name, settings, uuid, serverDid).value;
    ResolveServerRoutesDid(dir, codec, serverDid, s.did);
  }

  /** One iteration of the client's `ws_reader`: decode, open, validate; there is no receiver check. */
  function ClientStep(store: SecureStore, json: JsonRpcCodec, frame: string): (s: FrameStep)
    ensures !s.Skip?
    ensures s.Deliver? ==> !IsFatal(s.value)
    ensures Decode(frame).None? ==> s.Crash?
    ensures s.Crash? <==> Decode(frame).None? || store.open(Decode(frame).value).None?
    ensures s.Deliver? ==> s.value == Validated(json, store.open(Decode(frame).value).value.payload)
  {
    match Decode(frame)
    case None => Crash("binascii.Error")
    case Some(bytes) =>
      match store.open(bytes)
      case None => Crash("the message could not be opened")
      case Some(o) => Deliver(Validated(json, o.payload))
  }

  /** The client's `ws_reader` over the frames it receives. */
  function ClientRead(store: SecureStore, json: JsonRpcCodec, frames: seq<string>): (r: Reader)
    ensures |r.enqueued| <= |frames|
    ensures r.crash.None? ==> |r.enqueued| == |frames|
    ensures forall i :: 0 <= i < |r.enqueued| ==> !IsFatal(r.enqueued[i])
    decreases |frames|
  {
    if |frames| == 0 then Reader([], None)
    else Then(ClientStep(store, json, frames[0]), ClientRead(store, json, frames[1..]))
  }

  /** One iteration of the client's `ws_writer`: `json.dumps(model_dump(...))`, sealed from `did` to `serverDid`, base64url-encoded. */
  function ClientFrame(store: SecureStore, did: string, serverDid: string, json: JsonRpcCodec, m: Message): string {
    Encode(store.seal(did, serverDid, json.dumpViaDict(m)))
  }

  /** The client's `ws_writer`: one text frame per outgoing message, in order. */
  function ClientWrite(store: SecureStore, did: string, serverDid: string, json: JsonRpcCodec, outgoing: seq<Message>): (frames: seq<string>)
    ensures |frames| == |outgoing|
    ensures forall i :: 0 <= i < |frames| ==> frames[i] == ClientFrame(store, did, serverDid, json, outgoing[i])
    decreases |outgoing|
  {
    if |outgoing| == 0 then []
    else [ClientFrame(store, did, serverDid, json, outgoing[0])] + ClientWrite(store, did, serverDid, json, outgoing[1..])
  }

  /** The server's reader takes a client frame addressed to it as the message it carries. */
  lemma ServerStepOfClientFrame(store: SecureStore, did: string, serverDid: string, json: JsonRpcCodec, m: Message)
    requires SealOpens(store) && DumpValidates(json)
    ensures ServerStep(store, serverDid, json, ClientFrame(store, did, serverDid, json, m)) == Deliver(Received(m))
  {
    RoundTrip(store.seal(did, serverDid, json.dumpViaDict(m)));
  }

  /** The client's reader takes a server frame as the message it carries. */
  lemma ClientStepOfServerFrame(store: SecureStore, did: string, userDid: string, json: JsonRpcCodec, m: Message)
    requires SealOpens(store) && DumpValidates(json)
    ensures ClientStep(store, json, ServerFrame(store, did, userDid, json, m)) == Deliver(Received(m))
  {
    RoundTrip(store.seal(did, userDid, json.dump(m)));
  }

  /**
   * Client to server: the server's reader, given what the client's writer
   * sent to it, delivers every message in order and does not raise.
   */
  lemma {:induction false} ServerReadsClient(store: SecureStore, did: string, serverDid: string, json: JsonRpcCodec, outgoing: seq<Message>)
    requires SealOpens(store) && DumpValidates(json)
    ensures var r := ServerRead(store, serverDid, json, ClientWrite(store, did, serverDid, json, outgoing));
      && r.crash.None?
      && |r.enqueued| == |outgoing|
      && forall i :: 0 <= i < |outgoing| ==> r.enqueued[i] == Received(outgoing[i])
    decreases |outgoing|
  {
    if |outgoing| > 0 {
      var frames := ClientWrite(store, did, serverDid, json, outgoing);
      assert frames[1..] == ClientWrite(store, did, serverDid, json, outgoing[1..]);
      ServerStepOfClientFrame(store, did, serverDid, json, outgoing[0]);
      ServerReadsClient(store, did, serverDid, json, outgoing[1..]);
    }
  }

  /**
   * Server to client: the client's reader, given what the server's writer
   * sent, delivers every message in order and does not raise.
   */
  lemma {:induction false} ClientReadsServer(store: SecureStore, did: string, userDid: string, json: JsonRpcCodec, outgoing: seq<Message>)
    requires SealOpens(store) && DumpValidates(json)
    ensures var r := ClientRead(store, json, ServerWrite(store, did, userDid, json, outgoing));
      && r.crash.None?
      && |r.enqueued| == |outgoing|
      && forall i :: 0 <= i < |outgoing| ==> r.enqueued[i] == Received(outgoing[i])
    decreases |outgoing|
  {
    if |outgoing| > 0 {
      var frames := ServerWrite(store, did, userDid, json, outgoing);
      assert frames[1..] == ServerWrite(store, did, userDid, json, outgoing[1..]);
      ClientStepOfServerFrame(store, did, userDid, json, outgoing[0]);
      ClientReadsServer(store, did, userDid, json, outgoing[1..]);
    }
  }

  /**
   * Unlike the server, the client does not look at the receiver: a frame
   * sealed to any identity is delivered.
   */
  lemma ClientIgnoresReceiver(store: SecureStore, json: JsonRpcCodec, sender: string, receiver: string, m: Message, later: seq<string>)
    requires SealOpens(store) && DumpValidates(json)
    ensures ClientRead(store, json, [Encode(store.seal(sender, receiver, json.dump(m)))] + later).enqueued
         == [Received(m)] + ClientRead(store, json, later).enqueued
  {
    var bytes := store.seal(sender, receiver, json.dump(m));
    RoundTrip(bytes);
    assert ([Encode(bytes)] + later)[1..] == later;
  }

  /** A payload that does not validate puts one validation error on the client's stream, and reading goes on. */
  lemma ClientForwardsInvalid(store: SecureStore, json: JsonRpcCodec, sender: string, receiver: string, payload: string, later: seq<string>)
    requires SealOpens(store) && json.validate(payload).Err?
    ensures var r := ClientRead(store, json, [Encode(store.seal(sender, receiver, payload))] + later);
      && r.enqueued == [Raised(Invalid(json.validate(payload).error))] + ClientRead(store, json, later).enqueued
      && r.crash == ClientRead(store, json, later).crash
  {
    var bytes := store.seal(sender, receiver, payload);
    RoundTrip(bytes);
    assert ([Encode(bytes)] + later)[1..] == later;
  }
}

=== FILE: ws_server.dfy ===
/**
 * The WebSocket server transport: the handshake accepts the `mcp`
 * subprotocol; the reader turns each text frame (a base64url TSP message)
 * into a value on the read stream, skipping frames addressed to another
 * identity; the writer seals each outgoing message to the user's identity.
 * The reader's fold over frames is shared with the WebSocket client.
 */
module WsServer {
  import opened Wrappers
  import opened Base64Url
  import opened Wire

  /** The subprotocol both ends of the WebSocket transport use. */
  const McpSubprotocol := "mcp"

  /** `websocket.accept(subprotocol="mcp")`: the subprotocol the server answers a handshake with. */
  function AcceptedSubprotocol(requested: seq<string>): (chosen: string)
    ensures chosen == McpSubprotocol
  {
    McpSubprotocol
  }

  /** What a reader does with one frame: skip it, put one value on the read stream, or raise. */
  datatype FrameStep = Skip | Deliver(value: Inbound) | Crash(reason: string)

  /**
   * The values a reader put on the read stream, and the exception that
   * ended it, if any. An exception other than a validation error is not
   * put on the stream: it leaves the reader task and its task group.
   */
  datatype Reader = Reader(enqueued: seq<Inbound>, crash: Option<string>)

  /** One step of a reader followed by the rest of its run. */
  function Then(step: FrameStep, rest: Reader): (r: Reader)
    ensures step.Skip? ==> r == rest
    ensures step.Crash? ==> r == Reader([], Some(step.reason))
    ensures step.Deliver? ==> r.crash == rest.crash && r.enqueued == [step.value] + rest.enqueued
  {
    match step
    case Skip => rest
    case Deliver(v) => Reader([v] + rest.enqueued, rest.crash)
    case Crash(reason) => Reader([], Some(reason))
  }

  /** Running one reader after another: a crash ends the run, otherwise the values queue up. */
  function Append(first: Reader, second: Reader): (r: Reader)
    ensures first.crash.Some? ==> r == first
    ensures first.crash.None? ==> r.crash == second.crash && r.enqueued == first.enqueued + second.enqueued
  {
    if first.crash.Some? then first else Reader(first.enqueued + second.enqueued, second.crash)
  }

  /** The value a validated or rejected payload becomes on the read stream. */
  function Validated(json: JsonRpcCodec, text: string): (v: Inbound)
    ensures !IsFatal(v)
    ensures v.Received? <==> json.validate(text).Ok?
  {
    match json.validate(text)
    case Ok(m) => Received(m)
    case Err(error) => Raised(Invalid(error))
  }

  /**
   * One iteration of `ws_reader`: base64url-decode the frame, read the
   * envelope, skip it when it is addressed to another identity, open it,
   * and validate the payload.
   */
  function ServerStep(store: SecureStore, did: string, json: JsonRpcCodec, frame: string): (s: FrameStep)
    ensures s.Deliver? ==> !IsFatal(s.value)
    ensures Decode(frame).None? ==> s.Crash?
    ensures s.Skip? <==>
      && Decode(frame).Some?
      && store.senderReceiver(Decode(frame).value).Some?
      && store.senderReceiver(Decode(frame).value).value.1 != did
    ensures s.Crash? <==>
      || Decode(frame).None?
      || store.senderReceiver(Decode(frame).value).None?
      || (store.senderReceiver(Decode(frame).value).value.1 == did && store.open(Decode(frame).value).None?)
    ensures s.Deliver? ==> s.value == Validated(json, store.open(Decode(frame).value).value.payload)
  {
    match Decode(frame)
    case None => Crash("binascii.Error")
    case Some(bytes) =>
      match store.senderReceiver(bytes)
      case None => Crash("the envelope could not be read")
      case Some((sender, receiver)) =>
        if receiver != did then Skip
        else
          match store.open(bytes)
          case None => Crash("the message could not be opened")
          case Some(o) => Deliver(Validated(json, o.payload))
  }

  /** `ws_reader` over the frames the server receives. */
  function ServerRead(store: SecureStore, did: string, json: JsonRpcCodec, frames: seq<string>): (r: Reader)
    ensures |r.enqueued| <= |frames|
    ensures forall i :: 0 <= i < |r.enqueued| ==> !IsFatal(r.enqueued[i])
    decreases |frames|
  {
    if |frames| == 0 then Reader([], None)
    else Then(ServerStep(store, did, json, frames[0]), ServerRead(store, did, json, frames[1..]))
  }

  /** One iteration of `ws_writer`: the message dumped, sealed from `did` to `userDid`, and base64url-encoded. */
  function ServerFrame(store: SecureStore, did: string, userDid: string, json: JsonRpcCodec, m: Message): string {
    Encode(store.seal(did, userDid, json.dump(m)))
  }

  /** `ws_writer`: one text frame per outgoing message, in order. */
  function ServerWrite(store: SecureStore, did: string, userDid: string, json: JsonRpcCodec, outgoing: seq<Message>): (frames: seq<string>)
    ensures |frames| == |outgoing|
    ensures forall i :: 0 <= i < |frames| ==> frames[i] == ServerFrame(store, did, userDid, json, outgoing[i])
    decreases |outgoing|
  {
    if |outgoing| == 0 then []
    else [ServerFrame(store, did, userDid, json, outgoing[0])] + ServerWrite(store, did, userDid, json, outgoing[1..])
  }

  /** Reading two runs of frames is reading the first and then, unless it raised, the second. */
  lemma {:induction false} ServerReadAppend(store: SecureStore, did: string, json: JsonRpcCodec, a: seq<string>, b: seq<string>)
    ensures ServerRead(store, did, json, a + b) == Append(ServerRead(store, did, json, a), ServerRead(store, did, json, b))
    decreases |a|
  {
    if |a| == 0 {
      assert a + b == b;
    } else {
      assert (a + b)[0] == a[0];
      assert (a + b)[1..] == a[1..] + b;
      ServerReadAppend(store, did, json, a[1..], b);
      var step := ServerStep(store, did, json, a[0]);
      if step.Deliver? {
        var x := ServerRead(store, did, json, a[1..]);
        var y := ServerRead(store, did, json, b);
        if x.crash.None? {
          assert [step.value] + (x.enqueued + y.enqueued) == ([step.value] + x.enqueued) + y.enqueued;
        }
      }
    }
  }

  /** A frame sealed to another identity is skipped, whatever it carries. */
  lemma ServerSkipsOtherReceiver(store: SecureStore, did: string, json: JsonRpcCodec, sender: string, receiver: string, payload: string, later: seq<string>)
    requires SealOpens(store) && receiver != did
    ensures ServerRead(store, did, json, [Encode(store.seal(sender, receiver, payload))] + later)
         == ServerRead(store, did, json, later)
  {
    var bytes := store.seal(sender, receiver, payload);
    RoundTrip(bytes);
    assert ([Encode(bytes)] + later)[1..] == later;
  }

  /** A frame addressed to the server whose payload does not validate puts one validation error on the stream, and reading goes on. */
  lemma ServerForwardsInvalid(store: SecureStore, did: string, json: JsonRpcCodec, sender: string, payload: string, later: seq<string>)
    requires SealOpens(store) && json.validate(payload).Err?
    ensures var r := ServerRead(store, did, json, [Encode(store.seal(sender, did, payload))] + later);
      && r.enqueued == [Raised(Invalid(json.validate(payload).error))] + ServerRead(store, did, json, later).enqueued
      && r.crash == ServerRead(store, did, json, later).crash
  {
    var bytes := store.seal(sender, did, payload);
    RoundTrip(bytes);
    assert ([Encode(bytes)] + later)[1..] == later;
  }

  /** A frame that is not base64url ends the reader: what was read before it stays, nothing after it is read. */
  lemma ServerCrashesOnGarbage(store: SecureStore, did: string, json: JsonRpcCodec, before: seq<string>, frame: string, after: seq<string>)
    requires Decode(frame).None? && ServerRead(store, did, json, before).crash.None?
    ensures var r := ServerRead(store, did, json, before + [frame] + after);
      && r.enqueued == ServerRead(store, did, json, before).enqueued
      && r.crash.Some?
  {
    ServerReadAppend(store, did, json, before, [frame] + after);
    assert before + [frame] + after == before + ([frame] + after);
    assert ([frame] + after)[0] == frame;
    var tail := ServerRead(store, did, json, [frame] + after);
    assert tail.enqueued == [] && tail.crash.Some?;
    assert ServerRead(store, did, json, before).enqueued + [] == ServerRead(store, did, json, before).enqueued;
  }
}
